=== FILE: README.md ===
# Profit dashboard: the data core in Dafny

The profit dashboard records the projects of one month and their profit. For each project
it records the engineers' salary, customer-engineer visits, transport, the client's payment
and an overhead percentage. From these it derives each project's costs and profit and
summarises the month.

The desktop build keeps one spreadsheet workbook per month, which has two sheets:

- a **Projects** sheet with one row per project; its derived columns are written as
  same-row formulas;
- a **Summary** sheet with a fixed metric block, a table that refers back into Projects,
  a conditional-format rule over the table's profit column, and chart instructions.

The browser build keeps project lists, time-stamped backups and per-month snapshots in
key-value storage.

The model covers three parts of the system:

- **The in-memory store** `DataManager` (app.js). The modules are:
  - `Metrics`: the metric calculation.
  - `Stats`: the summary statistics.
  - `PeriodStore`: the current period, adding and deleting projects under both backends,
    the monthly snapshots, saving and loading.
  - `Backups`: pruning the browser backups to the newest five.
  - `Trend`: the six-month trend.
  - `Sorting` and `Strings`: JavaScript's string sort, `startsWith` and `Date.now()`
    rendered as decimal text.
- **The form validator** `AppController.validateFormData` (app.js). This is module
  `Validation`, with JavaScript numbers as NaN or finite.
- **The spreadsheet backend** `ExcelService` (excelService.js). The modules are:
  - `Sheets`: workbooks, cells, a formula language and its evaluation, and moving rows.
  - `ProjectRows`: the Projects header, the row a save appends, reading rows back, and
    delete-by-name.
  - `Summary`: the fixed block, `updateSummarySheet`, and the values of its metric and
    table cells.
  - `ExcelService`: file paths, open-or-create, save, delete, export and backup, over a
    file system modelled as a map from paths to workbooks.

Money is modelled as `real`. The clock is passed in as a parameter (`now`, `clock`, `iso`).
The desktop bridge's replies are parameters too (`IpcResult`, `LoadReply`). The modelled
file system has no failure besides a missing file.

## Model

| member | source | states |
|---|---|---|
| Metrics.CalculateProjectMetrics | app.js:50-67 | The record keeps the inputs and the stamp it is given. Engineer cost is the salary, visit cost is charge times visits, direct cost adds transport, overhead is the percentage of direct cost, total is direct plus overhead, and profit is payment minus total. Total cost and profit are also given in closed form. |
| Metrics.ConsistentDetermined | app.js:50-67 | Two consistent records with the same inputs have the same six derived amounts. |
| Metrics.EngineerCountIgnored | app.js:51-56 | The number of engineers does not change any derived amount. |
| Metrics.CostBounds | app.js:50-67 | For non-negative inputs, engineer and visit cost are non-negative and at most the direct cost. Direct cost is at most the total, and profit never exceeds the payment. |
| Metrics.AlphaExample | app.js:50-67 | A worked case: salary 1000, four visits at 50, transport 100, payment 1800 and overhead 10% give visit cost 200, direct 1300, overhead 130, total 1430 and profit 370. |
| Stats.GetSummaryStats | app.js:96-103 | The count is the list length. Revenue and costs are the sums of payments and total costs. Net profit is revenue minus costs. An empty list gives all zeros. |
| Stats.SumAppend | app.js:98-99 | The reduce-sum of a concatenation is the sum of the parts. |
| Stats.SumRemoveAt | app.js:98-99 | Removing one record lowers the sum by that record's amount. |
| Stats.StatsAfterAppend | app.js:96-103 | After a push (app.js:36 and 43), the count rises by one and each total rises by the new project's amount. |
| Stats.StatsAfterRemove | app.js:96-103 | After a splice of one project (app.js:85 and 91), the count drops by one and each total drops by that project's amount. |
| Stats.NetProfitIsSumOfProfits | app.js:96-103 | For consistent records, net profit equals the sum of the projects' own profits. |
| Validation.ValidateFormData | app.js:655-670 | Accepts exactly when the name is non-empty and none of the seven numeric fields is NaN or negative. |
| Validation.ToInput | app.js:655-670 | An accepted form becomes project inputs that are all non-negative and carry the same values. |
| Strings.LessTransitive | app.js:187 | JavaScript's default string order is transitive. |
| Strings.LessTotal | app.js:187 | Any two different strings are ordered one way or the other. |
| Strings.LessAsymmetric | app.js:187 | Of two strings, at most one is less than the other. |
| Strings.NatToString | app.js:177 | The decimal text of the clock is all digits and has no leading zero. |
| Strings.NatToStringRoundTrip | app.js:177 | The decimal text of the clock reads back as the same number. |
| Sorting.SortKeys | app.js:198 | The result is strictly ascending and lists exactly the given keys. |
| Sorting.Reverse | app.js:188 | The result has the same elements in the opposite order. |
| Sorting.DistinctCardinality | app.js:185-192 | A strictly sorted list has as many distinct elements as its length. |
| Backups.BackupKey | app.js:177 | Every backup key starts with the period's backup prefix. |
| Backups.CleanOldBackups | app.js:183-194 | Only the period's backup keys are removed, and every other key and value is kept. Exactly min(5, n) backups survive. Every removed backup sorts before every kept one. Five or fewer backups are left untouched. |
| Backups.KeptAreGreatest | app.js:185-192 | Removing every key after the first five of the descending listing leaves exactly the five greatest keys. |
| Trend.GetMonthlyTrend | app.js:196-205 | The trend lists min(6, n) periods in ascending order. Each point pairs a stored period with that snapshot's net profit. Every period left out sorts before every period listed. |
| PeriodStore.Init | app.js:3-9 | A new store has no period, no projects and no snapshots. |
| PeriodStore.GetCurrentPeriod | app.js:16-22 | Returns the month, the year and the key `year-month`, where a missing part renders as `null`. |
| PeriodStore.SetCurrentPeriod | app.js:11-14 | The period key becomes `year-month`. Projects, snapshots and storage are untouched. |
| PeriodStore.UpdateMonthlyData | app.js:105-115 | Afterwards the current period's snapshot is the project list with its statistics. Every other period's snapshot is unchanged. The browser build also writes the whole map out, and nothing else changes. |
| PeriodStore.SaveToLocalStorage | app.js:117-123 | The list is stored under its period key and the snapshot is synced. The written map is the in-memory one. The period keeps at most five backups, and the new stamped backup, when pruning keeps it, holds the list. No other key is added. Keys other than the list key and the period's backups keep their values, and the older backups can only be removed. |
| PeriodStore.ProjectsKeyIsNoBackup | app.js:186 | A period's project-list key is never taken for one of its backups, so pruning never deletes the list. |
| PeriodStore.CreateBackup | app.js:174-180 | The browser build adds only the new stamped key, which holds the current list when pruning keeps it, and keeps at most five backups. Every other surviving key keeps its value. Keys that are not the period's backups all survive. The rest of the store is unchanged. |
| PeriodStore.SpliceOne | app.js:91 | `splice(i, 1)` removes element i. A negative index counts from the end, and one below -n is clamped to remove the first element. An index past the end removes nothing. |
| PeriodStore.AddProject | app.js:24-48 | When the desktop save fails, the error is the reply's message or the default, and the store is unchanged. Otherwise the computed record is returned and appended, and the snapshot is synced. The browser build writes only the new list, its stamped backup and the snapshot map; other keys keep their values, and the stored map equals the store's synced map. |
| PeriodStore.DeleteProject | app.js:74-94 | In the desktop build, a missing index raises a TypeError and a failed delete raises the reply's message or the default; the store is unchanged in both cases. Otherwise the project at the index is removed. The browser build uses JavaScript splice semantics and writes only the new list, its stamped backup and the snapshot map, and the stored map equals the store's synced map. The snapshot is synced and no other period is touched. |
| PeriodStore.LoadFromLocalStorage | app.js:125-161 | Loads the desktop reply's list (empty when the load failed) or the stored browser list (empty when missing). It then adopts the stored snapshot map, if there is one, and syncs the current period. The browser build writes the synced map back; the desktop build leaves browser storage alone. |
| PeriodStore.GetSummary | app.js:96-103 | The statistics of the current list: the count is its length, and an empty list gives zeros. |
| PeriodStore.GetMonthlyTrend | app.js:196-205 | The store's trend lists min(6, n) of its periods in ascending order. Each point pairs a stored period with that snapshot's net profit. Every period left out sorts before every period listed. |
| Sheets.Arith | excelService.js:417-422 | An operand that is text or an error makes the formula an error. |
| Sheets.SumCells | excelService.js:114 | A `SUM` range evaluates to a number or an error. |
| Sheets.LocalAgrees | excelService.js:417-422 | A row whose formulas read only its own row has the same values in the workbook as on its own. |
| Sheets.MoveRowLocal | excelService.js:466 | A self-contained row stays self-contained after it is moved. |
| Sheets.MoveRowKeepsValues | excelService.js:466 | Moving a row with its formulas retargeted changes none of its values. |
| ProjectRows.FormatFor | excelService.js:427-434 | Columns 3, 4, 6, 7 and 9-14 get the currency mask, column 8 gets the percent mask, and every other column keeps the general mask. |
| ProjectRows.DerivedFormulas | excelService.js:417-422 | Each of the six derived-column formulas of row n reads only row n. |
| ProjectRows.ProjectRowShape | excelService.js:405-434 | A saved row is self-contained, and each of its columns carries the mask `FormatFor` gives it. |
| ProjectRows.AppendProject | excelService.js:405-424 | A save adds exactly one row at `rowCount + 1` and leaves every earlier row in place. |
| ProjectRows.SavedRowCells | excelService.js:408-424 | Inputs and stamp are stored as values, and columns I-N as the six formulas. |
| ProjectRows.SavedRowEvaluates | excelService.js:417-422 | The six formulas of a saved row evaluate to exactly the amounts the store's metric calculation derives. |
| ProjectRows.NamedRowsAscending | excelService.js:192-202 | The row numbers listed for the summary ascend. |
| ProjectRows.NamedRowsOnlyNamed | excelService.js:192-202 | Every listed row has a truthy name. |
| ProjectRows.NamedRowsAllNamed | excelService.js:192-202 | Every data row with a truthy name is listed. |
| ProjectRows.ReadProjects | excelService.js:360-391 | The read has one object per named data row, in sheet order, taken from that row's fifteen columns. |
| ProjectRows.ReadAfterAppend | excelService.js:360-391 | After a save, the read gives the earlier objects followed by the new row's, provided the row is named. |
| ProjectRows.ReadBackIsFormula | excelService.js:376-381 | The total cost and profit of a just-saved project are read back as formula objects, not numbers. |
| ProjectRows.DeleteRowAsWritten | excelService.js:466 | `spliceRows` removes the last matching row. Rows above it stay, and every row below moves up one with its cells, formulas included, unchanged. |
| ProjectRows.LastMatch | excelService.js:458-463 | The row picked is a data row named `name`, and no later row has that name. Zero means no data row has it. |
| ProjectRows.DeleteRowShape | excelService.js:466 | Rows above the deleted one stay. Every row below moves up one with its formulas re-pointed. |
| ProjectRows.DeleteRowLocal | excelService.js:466 | The corrected delete keeps every row self-contained. |
| ProjectRows.LoadProjectsNamed | excelService.js:360-391 | The row-by-row read, which evaluates each row on its own, succeeds exactly when every named row loads. It then lists the named rows' records in sheet order. |
| ProjectRows.LoadWorkbookLocal | excelService.js:360-391 | On a sheet whose rows are all self-contained, the corrected read, which evaluates each derived column in the workbook at its own row number, gives the same list as the row-by-row read. |
| ProjectRows.LoadSavedRow | excelService.js:408-424 | A saved row loads as the record the metric calculation gives for its inputs and save time. |
| ProjectRows.LoadAfterAppend | excelService.js:393-444 | Save then load: the list grows by the project's recomputed, restamped record. A nameless row is not loaded. |
| ProjectRows.LoadAfterAppendConsistent | excelService.js:393-444 | A consistent record comes back from save-then-load with only its stamp changed. |
| ProjectRows.RemoveLastSplit | excelService.js:458-466 | The record taken out is the last one with the name. |
| ProjectRows.LoadAfterDelete | excelService.js:446-473 | On a self-contained sheet, deleting by name and then loading through the workbook removes exactly the last record of that name. The others load with the amounts the workbook evaluated before. The sheet stays self-contained. |
| ProjectRows.SpliceLeavesStaleReferences | excelService.js:466 | With the splice as written, deleting the first of two projects leaves the second one's formulas reading the emptied row 3. Its engineer cost evaluates to an empty cell, which Excel displays as 0, and its profit to 0. |
| ProjectRows.DeleteRowKeepsShiftedRow | excelService.js:466 | With the corrected delete, the second project's moved row evaluates to its own engineer cost and profit. |
| ProjectRows.SpliceLoadsStaleAmounts | excelService.js:466 | When the second project's profit is not zero, the workbook loads differently after the splice as written than after the corrected delete, whatever the summary sheet holds. |
| Summary.FixedSummaryRows | excelService.js:82-150 | The fixed block is nine rows: the title, the metric header, the four metrics, and the table header in row 9. |
| Summary.KeepHeader | excelService.js:186-190 | Rows 10 onward are removed. The first nine rows are kept, and a shorter sheet reads as padded with empty rows. |
| Summary.UpdateSummary | excelService.js:174-358 | Projects are untouched and the header block is kept. Below it come the table and the chart block. The rules gain one range when there are projects. |
| Summary.UpdateSummaryLayout | excelService.js:204-231 | Table row 10+i refers to the i-th named project row, and the chart block (excelService.js:277-353) follows. With no projects, nothing is added below row 9 and no rule is added. |
| Summary.NewRuleCoversTable | excelService.js:233-275 | The new rule covers exactly `D10:D(9+n)`. |
| Summary.UpdateSummaryIdempotent | excelService.js:174-358 | Rebuilding twice gives the same sheets as rebuilding once. |
| Summary.RulesAccumulate | excelService.js:233-275 | The rules are never cleared: two rebuilds over a non-empty table add two rules and keep the earlier ones. |
| Summary.UpdateKeepsFixedBlock | excelService.js:186-190 | An intact fixed block survives a rebuild. |
| Summary.ChartRangeNamesLastRow | excelService.js:311 | The chart-range instruction names the table's last row, and its number reads back as that row. |
| Summary.DetailCellValue | excelService.js:204-214 | Each table cell evaluates to what its projects cell evaluates to. |
| Summary.DetailShowsProject | excelService.js:204-214 | Table row 10+i shows the i-th loaded project's name, total cost, payment and profit. |
| Summary.CountMatches | excelService.js:110-111 | `COUNTA(A2:A1000)` is the number of loaded projects. |
| Summary.SumMatches | excelService.js:113-118 | `SUM(G2:G1000)` and `SUM(M2:M1000)` are the sums of payments and total costs of the loaded projects. |
| Summary.MetricsMatchStats | excelService.js:110-123 | When every data row is named and loads, B4 to B7 evaluate to the store's count, revenue, costs and net profit (app.js:96-103) for the loaded list. |
| ExcelService.SanitizeClean | excelService.js:16 | The stamp keeps its length and every other character, and no `:` or `.` is left. |
| ExcelService.BackupPathIsNoPeriodFile | excelService.js:11-18 | A backup path never equals a month's file path. |
| ExcelService.FilePathInjective | excelService.js:11-13 | Different digit periods have different file paths. |
| ExcelService.NewWorkbookWellFormed | excelService.js:46-172 | A new month's workbook is well formed and loads as no projects. |
| ExcelService.Open | excelService.js:20-28 | An existing file is used as is. A missing file is created as the new workbook. |
| ExcelService.LoadOrCreateMonthFile | excelService.js:20-28 | The corrected load. A missing month is created and loads as the empty list. A well-formed file always loads. |
| ExcelService.LoadOrCreateMonthFileAsWritten | excelService.js:30-37 | The load as written. A missing month is created and reads as no objects. |
| ExcelService.SaveProject | excelService.js:393-444 | Returns the project as given and writes the month's file. Every other file is unchanged. |
| ExcelService.DeleteProject | excelService.js:446-473 | The corrected delete. It writes only the month's file, and every other file is unchanged. When an existing file has no row with the name, nothing is written, so the summary gains no rule. Otherwise the file's Projects sheet is the corrected row delete of the last match. |
| ExcelService.DeleteProjectAsWritten | excelService.js:446-473 | The delete as written, with `spliceRows`. It writes only the month's file, and every other file is unchanged. When an existing file has no row with the name, nothing is written. Otherwise the file's Projects sheet is the `spliceRows` delete of the last match. |
| ExcelService.ExportFile | excelService.js:486-494 | Fails with "Source file does not exist" exactly when the month's file is missing. Otherwise it copies the file to the destination. |
| ExcelService.CreateBackup | excelService.js:496-513 | Fails exactly when the month's file is missing. Otherwise it copies the file to the stamped backup path and returns that path. |
| ExcelService.BackupKeepsPeriodFiles | excelService.js:496-513 | A backup keeps every month's file as it was. |
| ExcelService.SaveProjectFileOk | excelService.js:393-444 | Saving keeps the month's file well formed. |
| ExcelService.DeleteProjectFileOk | excelService.js:446-473 | Deleting keeps the month's file well formed. |
| ExcelService.SaveThenLoad | excelService.js:393-444 | With the corrected load, saving a named project and loading the month gives the earlier list plus the recomputed, restamped record. |
| ExcelService.SaveThenLoadAsWritten | excelService.js:393-424 | With the load as written, saving a named project and loading the month gives the earlier objects plus one. That object's total cost and profit are formula objects. |
| ExcelService.DeleteThenLoad | excelService.js:446-473 | With the corrected delete and load, deleting a name and loading the month gives the earlier list without its last record of that name. |
| ExcelService.DeleteAsWrittenLoadsStale | excelService.js:446-473 | On a month file holding two saved projects, deleting the first with the delete as written loads differently from the corrected delete, when the second project's profit is not zero. |
| ExcelService.StoreAndFileAgree | app.js:74-94 | When the project at the index is the last one with its name, the file's delete and the store's splice remove the same record. |
| ExcelService.StoreAndFileDiverge | app.js:81-85 | When a later, different project shares the name, the file loses the later one while the store loses the one at the index, so the two lists differ. |

## Left out

- main.js and preload.js, the desktop shell and its message bridge: only their replies enter the model, as `IpcResult` and `LoadReply`.
- `UIController`, the DOM, the charts and the toasts: presentation only.
- Spreadsheet styling: fonts, fills, borders, merges, widths, heights and the conditional-format colours. Only the number masks and the rule's range are modelled.
- The workbook cache (excelService.js:8). Every operation opens the file afresh, so the model reads whatever the last write left in the file.
- ExcelService.SaveProject: places the saved values by column position. The source's `addRow` places them by the column keys that `createNewFile` sets (excelService.js:53-69). ExcelJS holds those keys in memory only, so a workbook re-read by `loadExistingFile` (excelService.js:30-37) may have none. A save into such a workbook would then append a row without values. Nothing in this code shows which way ExcelJS behaves, so the model assumes the keys are in force.
- ExcelService.LoadOrCreateMonthFile: models the corrected load, which evaluates the derived columns in the workbook. The load as written returns the raw formula objects and is `ExcelService.LoadOrCreateMonthFileAsWritten`.
- ExcelService.DeleteProject: models the corrected delete, which moves the formulas of the rows below with them. The `spliceRows` delete as written is `ExcelService.DeleteProjectAsWritten`.
- ExcelService.SaveThenLoad: the round trip holds for the corrected load only. With the load as written, the derived amounts come back as formula objects (`ExcelService.SaveThenLoadAsWritten`).
- ExcelService.DeleteThenLoad: the round trip holds for the corrected delete and load only. With the delete as written, a project below the deleted row loads with stale amounts (`ExcelService.DeleteAsWrittenLoadsStale`).
- ProjectRows.LoadAfterDelete: stated for self-contained sheets, whose formulas read only their own row. Every sheet the service writes is one (`ExcelService.WellFormed`). On a sheet with cross-row formulas, re-pointing the moved rows would change what they read.
- Reading and writing files, JSON, `mkdirSync`, and the `loadExistingFile` rethrow (excelService.js:40-43): the file system is a map, and nothing fails besides a missing file.
- `path.join` normalisation: paths are joined with `/`.
- Strings.Less: compares Unicode scalar values, whereas JavaScript's default `sort()` compares UTF-16 code units. The two orders differ only between characters above U+FFFF and those in U+E000–U+FFFF. Every sorted key here is ASCII: period keys come from the digit month and year selectors (app.js:267, app.js:278), and backup keys add digit time stamps.
- Clocks: `new Date().toISOString()` and `Date.now()` are parameters.
- IEEE floating point, infinities and `-0`: money is `real`. `Validation.ValidateFormData` treats only NaN as rejected, as the code does, so infinity is accepted.
- Asynchrony: every operation runs to completion on its own.
- Sheets.EvalCell: formula evaluation is bounded by a fuel of `EvalDepth` (10) references. Deeper chains read as errors. The summary cells are evaluated with one or two units more than the project rows need.
- Summary.MetricsMatchStats: stated only for sheets of at most 1000 rows in which every data row is named and loads. The ranges stop at row 1000, and an unnamed row's amounts would still be summed.
- `DataManager.exportToExcel` (app.js:207-230): a wrapper that maps the desktop dialog's reply onto `{success, canceled, path, error}`. The file copy it triggers is `ExcelService.ExportFile`.
- The desktop branch of `DataManager.createBackup` (app.js:164-173): it only logs the reply. The copy itself is `ExcelService.CreateBackup`.
- `DataManager.getProjects` (app.js:70-72) and `ExcelService.getProjects` (excelService.js:475-484): plain accessors. Without the cache, the latter is `ExcelService.LoadOrCreateMonthFile`.
- ExcelJS `rowCount` details: `Summary.KeepHeader` pads a short summary with empty rows. The new row of a save is placed at `rowCount + 1` and taken to be the sheet's length.
- The chart-block texts are written as the intended characters (chart emoji, bullet, bulb). The source file shows them in a mis-decoded form.

## Findings

| source | as written | input that shows it | evidently intended | confidence | as-written member | corrected member |
|---|---|---|---|---|---|---|
| excelService.js:466 | `spliceRows(rowToDelete, 1)` moves the rows below up, but their formulas keep the row numbers written at save time (excelService.js:417-422). | Save project A and then project B, so B is in row 3. Delete A. B's row is now row 2, but its formulas still read row 3, which is empty. B's engineer cost reads the empty row 3, which Excel shows as 0, and its profit is 0. | The rows below keep their values, with their formulas following them. The loaded list loses exactly the deleted project. | not executed | ProjectRows.SpliceLeavesStaleReferences | ProjectRows.DeleteRowKeepsShiftedRow |
| excelService.js:360-391 | `readProjectsFromWorkbook` takes `cell.value`. For the six derived columns that is the formula object the save wrote, not an amount. | Save any named project and load the month. Its `totalCost` and `profit` are formula objects, so the store's `reduce` sums (app.js:98-99) do not add amounts. | Load each project with its derived amounts evaluated, equal to the record the store computed. | not executed | ProjectRows.ReadBackIsFormula | ProjectRows.LoadAfterAppend |

The rest of the model uses the corrected halves. `ExcelService.DeleteProject` uses
`ProjectRows.DeleteRow`, and `ExcelService.LoadOrCreateMonthFile` uses `ProjectRows.LoadWorkbook`,
which evaluates each derived column in the workbook at its own row number. At the service level the
as-written halves are `ExcelService.DeleteProjectAsWritten` with `ExcelService.DeleteAsWrittenLoadsStale`
(the first finding, seen through the load), and `ExcelService.LoadOrCreateMonthFileAsWritten` with
`ExcelService.SaveThenLoadAsWritten` (the second). The summary lemmas speak of the row-by-row read
`ProjectRows.LoadProjects`. Their sheets are self-contained, so by `ProjectRows.LoadWorkbookLocal`
that read is the workbook load.

The model follows the code, not the prose description, in a few places:

- Delete-by-name removes the last row with that name.
- A save restamps the record with the save time.
- Each summary rebuild adds one more conditional-format rule, and the rules are never cleared.
- Only the browser build's backups are pruned.
- The desktop store deletes by position while the file deletes by name (`ExcelService.StoreAndFileDiverge`).

=== FILE: backups.dfy ===
/** Retention of the browser-storage backups (`DataManager.cleanOldBackups`): only the
    five greatest backup keys of a period survive. The spreadsheet backend's backups are
    never pruned; see `ExcelService.CreateBackup`. */
module Backups {
  import opened Strings
  import opened Sorting

  const MaxBackups: nat := 5

  /** Every backup key of a period starts with this text. */
  function BackupPrefix(periodKey: string): string
  {
    "profit_dashboard_backup_" + periodKey
  }

  /** The key one backup is written under; `now` is the millisecond clock reading. */
  function BackupKey(periodKey: string, now: nat): (k: string)
    ensures StartsWith(k, BackupPrefix(periodKey))
  {
    var k := BackupPrefix(periodKey) + "_" + NatToString(now);
    assert k[..|BackupPrefix(periodKey)|] == BackupPrefix(periodKey);
    k
  }

  /** The stored keys the cleaner treats as backups of the period: a plain prefix match. */
  function BackupKeys<V>(items: map<string, V>, periodKey: string): set<string>
  {
    set k | k in items && StartsWith(k, BackupPrefix(periodKey))
  }

  /** Sorts the period's backup keys, reverses them, and removes every key after the first five. */
  method CleanOldBackups<V>(items: map<string, V>, periodKey: string) returns (r: map<string, V>)
    ensures r.Keys <= items.Keys
    ensures forall k :: k in r ==> r[k] == items[k]
    ensures forall k :: k in items && !StartsWith(k, BackupPrefix(periodKey)) ==> k in r
    ensures |BackupKeys(r, periodKey)| ==
            if |BackupKeys(items, periodKey)| < MaxBackups then |BackupKeys(items, periodKey)| else MaxBackups
    ensures forall gone, kept ::
              gone in BackupKeys(items, periodKey) && gone !in r && kept in BackupKeys(r, periodKey)
              ==> Less(gone, kept)
    ensures |BackupKeys(items, periodKey)| <= MaxBackups ==> r == items
  {
    var keys := BackupKeys(items, periodKey);
    var sorted := SortKeys(keys);
    var desc := Reverse(sorted);
    r := items;
    if |desc| > MaxBackups {
      var i := MaxBackups;
      while i < |desc|
        invariant MaxBackups <= i <= |desc|
        invariant r == items - (set j | MaxBackups <= j < i :: desc[j])
      {
        r := r - {desc[i]};
        i := i + 1;
      }
      KeptAreGreatest(items, keys, sorted, desc, r);
    }
    assert BackupKeys(r, periodKey) == set k | k in r && k in keys;
  }

  /** The keys after the first five of the descending listing are the ascending listing's
      keys below its last five, `low`. */
  lemma DroppedAreLowest(sorted: seq<string>, desc: seq<string>, low: seq<string>)
    requires |desc| == |sorted| > MaxBackups && low == sorted[..|sorted| - MaxBackups]
    requires forall i :: 0 <= i < |sorted| ==> desc[i] == sorted[|sorted| - 1 - i]
    ensures (set j | MaxBackups <= j < |desc| :: desc[j]) == set k | k in low
  {
    var n := |sorted|;
    var removed := set j | MaxBackups <= j < n :: desc[j];
    forall k | k in removed ensures k in low {
      var j :| MaxBackups <= j < n && desc[j] == k;
      assert low[n - 1 - j] == k;
    }
    forall k | k in low ensures k in removed {
      var m :| 0 <= m < n - MaxBackups && low[m] == k;
      assert desc[n - 1 - m] == k;
    }
  }

  /** Removing the keys of `low` from the map leaves, of the backups, exactly those of `top`. */
  lemma KeptAreTop<V>(items: map<string, V>, keys: set<string>, sorted: seq<string>,
                      low: seq<string>, top: seq<string>, r: map<string, V>)
    requires StrictlySorted(sorted) && (forall k :: k in sorted <==> k in keys)
    requires keys <= items.Keys && sorted == low + top
    requires r == items - (set k | k in low)
    ensures (set k | k in r && k in keys) == set k | k in top
  {
    forall k | k in r && k in keys ensures k in top {
      var m :| 0 <= m < |sorted| && sorted[m] == k;
      if m < |low| {
        assert low[m] == k;
      } else {
        assert top[m - |low|] == k;
      }
    }
    forall k | k in top ensures k in r && k in keys {
      var m :| 0 <= m < |top| && top[m] == k;
      assert sorted[|low| + m] == k;
      forall a | 0 <= a < |low| ensures low[a] != k {
        assert low[a] == sorted[a];
        assert Less(sorted[a], sorted[|low| + m]);
        LessAsymmetric(sorted[a], k);
      }
    }
  }

  /** Every key of `low` sorts before every key of `top`, and `top` is strictly sorted. */
  lemma LowBeforeTop(sorted: seq<string>, low: seq<string>, top: seq<string>)
    requires StrictlySorted(sorted) && sorted == low + top
    ensures StrictlySorted(top)
    ensures forall x, y :: x in low && y in top ==> Less(x, y)
  {
    forall i, j | 0 <= i < j < |top| ensures Less(top[i], top[j]) {
      assert top[i] == sorted[|low| + i] && top[j] == sorted[|low| + j];
    }
    forall x, y | x in low && y in top ensures Less(x, y) {
      var a :| 0 <= a < |low| && low[a] == x;
      var b :| 0 <= b < |top| && top[b] == y;
      assert low[a] == sorted[a] && top[b] == sorted[|low| + b];
    }
  }

  /** After removing `desc[5..]` the backups left are the last five of the ascending listing. */
  lemma KeptAreGreatest<V>(items: map<string, V>, keys: set<string>, sorted: seq<string>,
                           desc: seq<string>, r: map<string, V>)
    requires StrictlySorted(sorted) && (forall k :: k in sorted <==> k in keys)
    requires keys <= items.Keys
    requires |desc| == |sorted| > MaxBackups
    requires forall i :: 0 <= i < |sorted| ==> desc[i] == sorted[|sorted| - 1 - i]
    requires r == items - (set j | MaxBackups <= j < |desc| :: desc[j])
    ensures forall k :: k in items && k !in keys ==> k in r
    ensures |set k | k in r && k in keys| == MaxBackups
    ensures forall gone, kept :: gone in keys && gone !in r && kept in keys && kept in r ==> Less(gone, kept)
  {
    var n := |sorted|;
    var low := sorted[..n - MaxBackups];
    var top := sorted[n - MaxBackups..];
    assert sorted == low + top;
    DroppedAreLowest(sorted, desc, low);
    assert r == items - (set k | k in low);
    KeptAreTop(items, keys, sorted, low, top, r);
    LowBeforeTop(sorted, low, top);
    DistinctCardinality(top);
    assert forall k :: k in keys && k !in r ==> k in low;
    assert forall k :: k in keys && k in r ==> k in top;
  }
}

=== FILE: excel_service.dfy ===
/** The spreadsheet backend of the desktop build, `ExcelService`: one workbook file per month
    under a base directory, opened or created on demand, changed by appending or deleting a
    project row (the summary sheet is rebuilt after each change), copied out on export and
    on backup. The file system is a map from paths to workbooks; the in-memory workbook cache
    is not modelled, so every operation opens the file afresh. */
module ExcelService {
  import opened Results
  import opened Strings
  import opened Sheets
  import opened Metrics
  import opened ProjectRows
  import opened Summary

  datatype Service = Service(basePath: string, files: map<string, Workbook>)

  const MissingSource := "Source file does not exist"

  /** `path.join` of two parts, without its normalisation. */
  function JoinPath(dir: string, name: string): string
  {
    dir + "/" + name
  }

  function FileName(month: string, year: string): string
  {
    "Profit_Dashboard_" + year + "_" + month + ".xlsx"
  }

  function GetFilePath(basePath: string, month: string, year: string): string
  {
    JoinPath(basePath, FileName(month, year))
  }

  /** The ISO time with every `:` and `.` replaced by `-`. */
  function Sanitize(iso: string): string
  {
    seq(|iso|, i requires 0 <= i < |iso| => if iso[i] == ':' || iso[i] == '.' then '-' else iso[i])
  }

  function GetBackupPath(basePath: string, month: string, year: string, iso: string): string
  {
    JoinPath(JoinPath(basePath, "backups"), "Backup_" + year + "_" + month + "_" + Sanitize(iso) + ".xlsx")
  }

  /** The stamp keeps its length and every other character; none of `:` or `.` is left. */
  lemma SanitizeClean(iso: string)
    ensures var s := Sanitize(iso);
            && |s| == |iso|
            && (forall i :: 0 <= i < |s| ==> s[i] != ':' && s[i] != '.')
            && (forall i :: 0 <= i < |s| && iso[i] != ':' && iso[i] != '.' ==> s[i] == iso[i])
  {
  }

  /** A backup never lands on a month's file, whatever the periods and the clock. */
  lemma BackupPathIsNoPeriodFile(basePath: string, month: string, year: string, iso: string,
                                 month': string, year': string)
    ensures GetBackupPath(basePath, month, year, iso) != GetFilePath(basePath, month', year')
  {
    var b := GetBackupPath(basePath, month, year, iso);
    var f := GetFilePath(basePath, month', year');
    assert b[|basePath| + 1] == 'b';
    assert f[|basePath| + 1] == 'P';
  }

  /** The month and year the period selectors produce: decimal digits, no separator. */
  predicate PeriodPart(s: string)
  {
    IsDigits(s)
  }

  /** The characters of `y + "_" + m`. */
  lemma JoinedAt(y: string, m: string, k: nat)
    ensures k < |y| ==> (y + "_" + m)[k] == y[k]
    ensures k == |y| ==> (y + "_" + m)[k] == '_'
  {
  }

  lemma SplitAtSeparator(y: string, m: string, y': string, m': string)
    requires PeriodPart(y) && PeriodPart(m) && PeriodPart(y') && PeriodPart(m')
    requires y + "_" + m == y' + "_" + m'
    ensures y == y' && m == m'
  {
    var s := y + "_" + m;
    var s' := y' + "_" + m';
    if |y| < |y'| {
      JoinedAt(y, m, |y|);
      assert false;
    } else if |y'| < |y| {
      JoinedAt(y', m', |y'|);
      assert false;
    }
    assert y == s[..|y|] && y' == s'[..|y|];
    assert m == s[|y| + 1..] && m' == s'[|y| + 1..];
  }

  /** Different periods have different files. */
  lemma FilePathInjective(basePath: string, month: string, year: string, month': string, year': string)
    requires PeriodPart(month) && PeriodPart(year) && PeriodPart(month') && PeriodPart(year')
    requires GetFilePath(basePath, month, year) == GetFilePath(basePath, month', year')
    ensures month == month' && year == year'
  {
    var f := GetFilePath(basePath, month, year);
    var f' := GetFilePath(basePath, month', year');
    var start := |basePath| + 1 + |"Profit_Dashboard_"|;
    assert |f| == |f'|;
    assert f[start..|f| - 5] == year + "_" + month;
    assert f'[start..|f'| - 5] == year' + "_" + month';
    SplitAtSeparator(year, month, year', month');
  }

  // ---- workbooks ----

  /** A month's fresh workbook: the projects header and the summary's fixed block, no rules. */
  function NewWorkbook(): Workbook
  {
    Workbook([HeaderRow()], FixedSummaryRows(), [])
  }

  /** What every workbook the service writes looks like: the header row first, self-contained
      project rows that all load, and the summary's fixed block in place. */
  predicate WellFormed(wb: Workbook)
  {
    && |wb.projects| >= 1 && wb.projects[0] == HeaderRow()
    && LocalSheet(wb.projects)
    && LoadProjects(wb.projects).Some?
    && |wb.summary| >= HeaderRows && wb.summary[..HeaderRows] == FixedSummaryRows()
  }

  lemma NewWorkbookWellFormed()
    ensures WellFormed(NewWorkbook())
    ensures LoadProjects(NewWorkbook().projects) == Some([])
  {
    assert RowIsLocal(HeaderRow(), 1);
  }

  /** The month's file is missing or well formed. */
  predicate FileOk(svc: Service, month: string, year: string)
  {
    var path := GetFilePath(svc.basePath, month, year);
    path in svc.files ==> WellFormed(svc.files[path])
  }

  /** `loadOrCreateMonthFile` without the read: the existing workbook, or a new one written
      to the month's path. */
  function Open(svc: Service, month: string, year: string): (r: (Service, Workbook))
    ensures var path := GetFilePath(svc.basePath, month, year);
            && r.0.basePath == svc.basePath
            && path in r.0.files && r.0.files[path] == r.1
            && (path in svc.files ==> r == (svc, svc.files[path]))
            && (path !in svc.files ==> r.1 == NewWorkbook() && r.0.files == svc.files[path := NewWorkbook()])
  {
    var path := GetFilePath(svc.basePath, month, year);
    if path in svc.files then (svc, svc.files[path])
    else (svc.(files := svc.files[path := NewWorkbook()]), NewWorkbook())
  }

  /** The corrected `loadOrCreateMonthFile`: opens or creates the month's file and reads its
      projects with the derived columns evaluated in the workbook; nothing when a named row
      does not load. `getProjects` is the same operation once the cache is left out. */
  function LoadOrCreateMonthFile(svc: Service, month: string, year: string): (r: (Service, Option<seq<ProjectRecord>>))
    ensures r.0 == Open(svc, month, year).0
    ensures GetFilePath(svc.basePath, month, year) !in svc.files ==> r.1 == Some([])
    ensures FileOk(svc, month, year) ==> r.1.Some?
  {
    var (svc', wb) := Open(svc, month, year);
    OpenLoads(svc, month, year);
    (svc', LoadWorkbook(wb))
  }

  /** The workbook `Open` gives loads, and a fresh one loads as the empty list. */
  lemma OpenLoads(svc: Service, month: string, year: string)
    ensures FileOk(svc, month, year) ==> LoadWorkbook(Open(svc, month, year).1).Some?
    ensures GetFilePath(svc.basePath, month, year) !in svc.files ==> LoadWorkbook(Open(svc, month, year).1) == Some([])
  {
    NewWorkbookWellFormed();
    if FileOk(svc, month, year) {
      LoadWorkbookLocal(Open(svc, month, year).1);
    }
  }

  /** `loadOrCreateMonthFile` as written: opens or creates the month's file and reads the raw
      cell values of its named rows, so the derived columns come back as formula objects. */
  function LoadOrCreateMonthFileAsWritten(svc: Service, month: string, year: string): (r: (Service, seq<RawProject>))
    ensures r.0 == Open(svc, month, year).0
    ensures GetFilePath(svc.basePath, month, year) !in svc.files ==> r.1 == []
  {
    var (svc', wb) := Open(svc, month, year);
    assert NamedRows(NewWorkbook().projects) == [];
    (svc', ReadProjects(wb.projects))
  }

  /** Appends the project's row to the month's file, rebuilds the summary and writes the
      file; answers the project as given. */
  function SaveProject(svc: Service, month: string, year: string, data: ProjectRecord, now: string): (r: (Service, ProjectRecord))
    ensures r.1 == data && r.0.basePath == svc.basePath
    ensures var path := GetFilePath(svc.basePath, month, year);
            path in r.0.files && forall p :: p in svc.files && p != path ==> p in r.0.files && r.0.files[p] == svc.files[p]
  {
    var (svc', wb) := Open(svc, month, year);
    var path := GetFilePath(svc.basePath, month, year);
    var wb' := UpdateSummary(wb.(projects := AppendProject(wb.projects, data, now)));
    (svc'.(files := svc'.files[path := wb']), data)
  }

  /** Deletes the last row carrying the name, rebuilding the summary and writing the file;
      with no such row the file is only opened (and created when missing). The row delete is
      the one that moves the formulas of the rows below along with them. */
  function DeleteProject(svc: Service, month: string, year: string, name: string): (r: Service)
    ensures r.basePath == svc.basePath
    ensures var path := GetFilePath(svc.basePath, month, year);
            path in r.files && forall p :: p in svc.files && p != path ==> p in r.files && r.files[p] == svc.files[p]
    ensures var path := GetFilePath(svc.basePath, month, year);
            path in svc.files && LastMatch(svc.files[path].projects, name) == 0 ==> r == svc
    ensures var path := GetFilePath(svc.basePath, month, year);
            path in svc.files && LastMatch(svc.files[path].projects, name) > 0 ==>
              r.files[path].projects == DeleteRow(svc.files[path].projects, name)
  {
    var (svc', wb) := Open(svc, month, year);
    var path := GetFilePath(svc.basePath, month, year);
    if LastMatch(wb.projects, name) == 0 then svc'
    else svc'.(files := svc'.files[path := UpdateSummary(wb.(projects := DeleteRow(wb.projects, name)))])
  }

  /** `deleteProject` as written: the last row carrying the name goes with `spliceRows`, which
      moves the rows below up one with their formulas unchanged. */
  function DeleteProjectAsWritten(svc: Service, month: string, year: string, name: string): (r: Service)
    ensures r.basePath == svc.basePath
    ensures var path := GetFilePath(svc.basePath, month, year);
            path in r.files && forall p :: p in svc.files && p != path ==> p in r.files && r.files[p] == svc.files[p]
    ensures var path := GetFilePath(svc.basePath, month, year);
            path in svc.files && LastMatch(svc.files[path].projects, name) == 0 ==> r == svc
    ensures var path := GetFilePath(svc.basePath, month, year);
            path in svc.files && LastMatch(svc.files[path].projects, name) > 0 ==>
              r.files[path].projects == DeleteRowAsWritten(svc.files[path].projects, name)
  {
    var (svc', wb) := Open(svc, month, year);
    var path := GetFilePath(svc.basePath, month, year);
    if LastMatch(wb.projects, name) == 0 then svc'
    else svc'.(files := svc'.files[path := UpdateSummary(wb.(projects := DeleteRowAsWritten(wb.projects, name)))])
  }

  /** Copies the month's file to `dest`; an error when the file does not exist. */
  function ExportFile(svc: Service, month: string, year: string, dest: string): (r: Result<Service>)
    ensures var path := GetFilePath(svc.basePath, month, year);
            && (r.Err? <==> path !in svc.files)
            && (r.Err? ==> r.msg == MissingSource)
            && (r.Ok? ==> r.value.files == svc.files[dest := svc.files[path]])
  {
    var path := GetFilePath(svc.basePath, month, year);
    if path !in svc.files then Err(MissingSource) else Ok(svc.(files := svc.files[dest := svc.files[path]]))
  }

  /** Copies the month's file into the backups directory under a name stamped with the time
      and answers that path; an error when the file does not exist. Backups are never pruned. */
  function CreateBackup(svc: Service, month: string, year: string, iso: string): (r: Result<(Service, string)>)
    ensures var path := GetFilePath(svc.basePath, month, year);
            && (r.Err? <==> path !in svc.files)
            && (r.Err? ==> r.msg == MissingSource)
            && (r.Ok? ==> r.value.1 == GetBackupPath(svc.basePath, month, year, iso)
                          && r.value.0.files == svc.files[r.value.1 := svc.files[path]])
  {
    var path := GetFilePath(svc.basePath, month, year);
    if path !in svc.files then Err(MissingSource)
    else
      var backup := GetBackupPath(svc.basePath, month, year, iso);
      Ok((svc.(files := svc.files[backup := svc.files[path]]), backup))
  }

  /** A backup adds one file and keeps every month's file as it was. */
  lemma BackupKeepsPeriodFiles(svc: Service, month: string, year: string, iso: string, month': string, year': string)
    requires CreateBackup(svc, month, year, iso).Ok?
    ensures var after := CreateBackup(svc, month, year, iso).value.0;
            var path := GetFilePath(svc.basePath, month', year');
            (path in after.files <==> path in svc.files)
            && (path in svc.files ==> after.files[path] == svc.files[path])
            && svc.files.Keys <= after.files.Keys
  {
    BackupPathIsNoPeriodFile(svc.basePath, month, year, iso, month', year');
  }

  // ---- the files stay well formed, and what they load ----

  lemma SaveKeepsWellFormed(wb: Workbook, data: ProjectRecord, now: string)
    requires WellFormed(wb)
    ensures WellFormed(UpdateSummary(wb.(projects := AppendProject(wb.projects, data, now))))
  {
    LoadAfterAppend(wb.projects, data, now);
    UpdateKeepsFixedBlock(wb.(projects := AppendProject(wb.projects, data, now)));
  }

  lemma DeleteKeepsWellFormed(wb: Workbook, name: string)
    requires WellFormed(wb) && LastMatch(wb.projects, name) > 0
    ensures WellFormed(UpdateSummary(wb.(projects := DeleteRow(wb.projects, name))))
  {
    DeleteRowShape(wb.projects, name);
    DeleteRowLocal(wb.projects, name);
    LoadRowwiseAfterDelete(wb.projects, name);
    UpdateKeepsFixedBlock(wb.(projects := DeleteRow(wb.projects, name)));
  }

  /** Saving keeps the month's file well formed. */
  lemma SaveProjectFileOk(svc: Service, month: string, year: string, data: ProjectRecord, now: string)
    requires FileOk(svc, month, year)
    ensures FileOk(SaveProject(svc, month, year, data, now).0, month, year)
  {
    NewWorkbookWellFormed();
    SaveKeepsWellFormed(Open(svc, month, year).1, data, now);
  }

  /** Deleting keeps the month's file well formed. */
  lemma DeleteProjectFileOk(svc: Service, month: string, year: string, name: string)
    requires FileOk(svc, month, year)
    ensures FileOk(DeleteProject(svc, month, year, name), month, year)
  {
    NewWorkbookWellFormed();
    var wb := Open(svc, month, year).1;
    if LastMatch(wb.projects, name) > 0 {
      DeleteKeepsWellFormed(wb, name);
    }
  }

  /** Saving a named project then loading the month gives the earlier list with the project's
      record, restamped with the save time, at the end. */
  lemma SaveThenLoad(svc: Service, month: string, year: string, data: ProjectRecord, now: string)
    requires FileOk(svc, month, year) && |data.input.projectName| > 0
    ensures var before := LoadOrCreateMonthFile(svc, month, year).1;
            var after := LoadOrCreateMonthFile(SaveProject(svc, month, year, data, now).0, month, year).1;
            before.Some? && after == Some(before.value + [CalculateProjectMetrics(data.input, now)])
  {
    NewWorkbookWellFormed();
    var wb := Open(svc, month, year).1;
    var wb' := UpdateSummary(wb.(projects := AppendProject(wb.projects, data, now)));
    SaveKeepsWellFormed(wb, data, now);
    LoadWorkbookLocal(wb);
    LoadWorkbookLocal(wb');
    LoadAfterAppend(wb.projects, data, now);
  }

  /** As written, saving a named project and loading the month gives the earlier objects and
      then the project's, whose total cost and profit are formula objects, not amounts. */
  lemma SaveThenLoadAsWritten(svc: Service, month: string, year: string, data: ProjectRecord, now: string)
    requires FileOk(svc, month, year) && |data.input.projectName| > 0
    ensures var before := LoadOrCreateMonthFileAsWritten(svc, month, year).1;
            var after := LoadOrCreateMonthFileAsWritten(SaveProject(svc, month, year, data, now).0, month, year).1;
            && |after| == |before| + 1 && after[..|before|] == before
            && after[|before|].totalCost.Fx? && after[|before|].profit.Fx?
  {
    NewWorkbookWellFormed();
    var wb := Open(svc, month, year).1;
    ReadAfterAppend(wb.projects, data, now);
    SavedFormulaCells(data, |wb.projects| + 1, now);
  }

  /** Deleting a name then loading the month gives the earlier list without its last record
      of that name (the same list when there is none). */
  lemma DeleteThenLoad(svc: Service, month: string, year: string, name: string)
    requires FileOk(svc, month, year)
    ensures var before := LoadOrCreateMonthFile(svc, month, year).1;
            var after := LoadOrCreateMonthFile(DeleteProject(svc, month, year, name), month, year).1;
            before.Some? && after == Some(RemoveLastNamed(before.value, name))
  {
    NewWorkbookWellFormed();
    var wb := Open(svc, month, year).1;
    LoadWorkbookLocal(wb);
    LoadRowwiseAfterDelete(wb.projects, name);
    if LastMatch(wb.projects, name) > 0 {
      var wb' := UpdateSummary(wb.(projects := DeleteRow(wb.projects, name)));
      DeleteKeepsWellFormed(wb, name);
      LoadWorkbookLocal(wb');
    }
  }

  /** As written, deleting the first of two saved projects and loading the month gives the
      second project with a zero profit, where the corrected delete loads its own amounts. */
  lemma DeleteAsWrittenLoadsStale(svc: Service, month: string, year: string,
                                  first: ProjectRecord, second: ProjectRecord, t1: string, t2: string)
    requires var path := GetFilePath(svc.basePath, month, year);
             path in svc.files && svc.files[path].projects == TwoProjectSheet(first, second, t1, t2)
    requires first.input.projectName != second.input.projectName && |second.input.projectName| > 0
    requires CalculateProjectMetrics(second.input, t2).profit != 0.0
    ensures var name := first.input.projectName;
            LoadOrCreateMonthFile(DeleteProjectAsWritten(svc, month, year, name), month, year).1
            != LoadOrCreateMonthFile(DeleteProject(svc, month, year, name), month, year).1
  {
    var path := GetFilePath(svc.basePath, month, year);
    var wb := svc.files[path];
    var name := first.input.projectName;
    TwoProjectSheetFacts(first, second, t1, t2);
    var stale := UpdateSummary(wb.(projects := DeleteRowAsWritten(wb.projects, name)));
    var fixed := UpdateSummary(wb.(projects := DeleteRow(wb.projects, name)));
    assert DeleteProjectAsWritten(svc, month, year, name).files[path] == stale;
    assert DeleteProject(svc, month, year, name).files[path] == fixed;
    SpliceLoadsStaleAmounts(first, second, t1, t2, stale, fixed);
  }

  // ---- the desktop store deletes by position, the file by name ----

  lemma RemoveAtMultiset(ps: seq<ProjectRecord>, i: nat)
    requires i < |ps|
    ensures multiset(ps[..i] + ps[i + 1..]) + multiset{ps[i]} == multiset(ps)
  {
    assert ps == ps[..i] + [ps[i]] + ps[i + 1..];
  }

  /** When the project at `i` is the last one with its name, removing the last record of
      that name from the file's list removes exactly that project. */
  lemma StoreAndFileAgree(ps: seq<ProjectRecord>, i: nat, name: string)
    requires i < |ps| && ps[i].input.projectName == name
    requires forall k :: i < k < |ps| ==> ps[k].input.projectName != name
    ensures RemoveLastNamed(ps, name) == ps[..i] + ps[i + 1..]
  {
    var a, b := ps[..i], ps[i + 1..];
    forall k | 0 <= k < |b| ensures b[k].input.projectName != name {
      assert b[k] == ps[i + 1 + k];
    }
    assert ps == a + [ps[i]] + b;
    RemoveLastSplit(a, ps[i], b, name);
  }

  /** Removing two different records from the same list gives different lists. */
  lemma RemoveDifferent(ps: seq<ProjectRecord>, i: nat, j: nat)
    requires i < |ps| && j < |ps| && ps[i] != ps[j]
    ensures ps[..i] + ps[i + 1..] != ps[..j] + ps[j + 1..]
  {
    var x := ps[i];
    RemoveAtMultiset(ps, i);
    RemoveAtMultiset(ps, j);
    var mi := multiset(ps[..i] + ps[i + 1..]);
    var mj := multiset(ps[..j] + ps[j + 1..]);
    assert mi[x] + 1 == multiset(ps)[x];
    assert mj[x] == multiset(ps)[x];
  }

  /** When a later, different project shares the name of the one at `i`, the list the desktop
      store keeps after deleting position `i` and the list the file loads after deleting that
      name disagree. */
  lemma StoreAndFileDiverge(ps: seq<ProjectRecord>, i: nat, j: nat)
    requires i < j < |ps| && ps[j].input.projectName == ps[i].input.projectName && ps[j] != ps[i]
    requires forall k :: j < k < |ps| ==> ps[k].input.projectName != ps[j].input.projectName
    ensures RemoveLastNamed(ps, ps[i].input.projectName) != ps[..i] + ps[i + 1..]
  {
    StoreAndFileAgree(ps, j, ps[j].input.projectName);
    RemoveDifferent(ps, i, j);
  }
}

=== FILE: metrics.dfy ===
/** The project record and the metric arithmetic of `DataManager.calculateProjectMetrics`. */
module Metrics {

  /** The eight fields the entry form supplies. `engineerSalary` is already the monthly
      salary total: the engineer count is recorded but takes no part in any cost. */
  datatype ProjectInput = ProjectInput(
    projectName: string,
    numEngineers: real,
    engineerSalary: real,
    ceVisitCharge: real,
    visitsPerMonth: real,
    transportCost: real,
    clientPayment: real,
    overheadAllocation: real)

  /** A project of a period: its inputs, the six derived amounts and a creation stamp. */
  datatype ProjectRecord = ProjectRecord(
    input: ProjectInput,
    engineerCost: real,
    ceVisitCost: real,
    directCost: real,
    overheadCost: real,
    totalCost: real,
    profit: real,
    timestamp: string)

  /** Every numeric input is at least zero, as the entry form demands. */
  predicate NonNegative(d: ProjectInput)
  {
    && d.numEngineers >= 0.0
    && d.engineerSalary >= 0.0
    && d.ceVisitCharge >= 0.0
    && d.visitsPerMonth >= 0.0
    && d.transportCost >= 0.0
    && d.clientPayment >= 0.0
    && d.overheadAllocation >= 0.0
  }

  /** The record invariant: each derived amount is the fixed function of the inputs, step by step. */
  predicate Consistent(r: ProjectRecord)
  {
    && r.engineerCost == r.input.engineerSalary
    && r.ceVisitCost == r.input.ceVisitCharge * r.input.visitsPerMonth
    && r.directCost == r.engineerCost + r.ceVisitCost + r.input.transportCost
    && r.overheadCost == r.directCost * (r.input.overheadAllocation / 100.0)
    && r.totalCost == r.directCost + r.overheadCost
    && r.profit == r.input.clientPayment - r.totalCost
  }

  /** Salary plus visit charges plus transport: the cost before overhead, in one expression. */
  function DirectCostOf(d: ProjectInput): real
  {
    d.engineerSalary + d.ceVisitCharge * d.visitsPerMonth + d.transportCost
  }

  /** Derives the six amounts; `now` is the ISO-8601 creation instant the source reads from the clock. */
  function CalculateProjectMetrics(d: ProjectInput, now: string): (r: ProjectRecord)
    ensures r.input == d && r.timestamp == now
    ensures Consistent(r)
    ensures r.totalCost == DirectCostOf(d) * (100.0 + d.overheadAllocation) / 100.0
    ensures r.profit == d.clientPayment - DirectCostOf(d) * (100.0 + d.overheadAllocation) / 100.0
  {
    var engineerCost := d.engineerSalary;
    var ceVisitCost := d.ceVisitCharge * d.visitsPerMonth;
    var directCost := engineerCost + ceVisitCost + d.transportCost;
    var overheadCost := directCost * (d.overheadAllocation / 100.0);
    var totalCost := directCost + overheadCost;
    ProjectRecord(d, engineerCost, ceVisitCost, directCost, overheadCost, totalCost,
                  d.clientPayment - totalCost, now)
  }

  /** Derived amounts are determined by the inputs: two consistent records with the same
      inputs agree on all six of them. */
  lemma ConsistentDetermined(a: ProjectRecord, b: ProjectRecord)
    requires Consistent(a) && Consistent(b) && a.input == b.input
    ensures a.engineerCost == b.engineerCost && a.ceVisitCost == b.ceVisitCost
    ensures a.directCost == b.directCost && a.overheadCost == b.overheadCost
    ensures a.totalCost == b.totalCost && a.profit == b.profit
  {
  }

  /** The number of engineers does not influence any derived amount. */
  lemma EngineerCountIgnored(d: ProjectInput, n: real, now: string)
    ensures var a := CalculateProjectMetrics(d, now);
            var b := CalculateProjectMetrics(d.(numEngineers := n), now);
            a.engineerCost == b.engineerCost && a.ceVisitCost == b.ceVisitCost
            && a.directCost == b.directCost && a.overheadCost == b.overheadCost
            && a.totalCost == b.totalCost && a.profit == b.profit
  {
  }

  /** With non-negative inputs the total cost covers the direct cost, which covers
      each of its parts, and the profit never exceeds the client payment. */
  lemma CostBounds(d: ProjectInput, now: string)
    requires NonNegative(d)
    ensures var r := CalculateProjectMetrics(d, now);
            0.0 <= r.engineerCost <= r.directCost && 0.0 <= r.ceVisitCost <= r.directCost
            && r.directCost <= r.totalCost && r.profit <= d.clientPayment
  {
    var r := CalculateProjectMetrics(d, now);
    assert r.ceVisitCost >= 0.0 by {
      assert d.ceVisitCharge * d.visitsPerMonth >= 0.0 * d.visitsPerMonth;
    }
    assert r.overheadCost >= 0.0 by {
      assert r.directCost >= 0.0;
      assert d.overheadAllocation / 100.0 >= 0.0;
    }
  }

  /** The worked example: two engineers on a 1000 salary, four visits at 50, 100 transport,
      a 1800 payment and 10% overhead. */
  lemma AlphaExample(now: string)
    ensures var r := CalculateProjectMetrics(
              ProjectInput("Alpha", 2.0, 1000.0, 50.0, 4.0, 100.0, 1800.0, 10.0), now);
            r.engineerCost == 1000.0 && r.ceVisitCost == 200.0 && r.directCost == 1300.0
            && r.overheadCost == 130.0 && r.totalCost == 1430.0 && r.profit == 370.0
  {
  }
}

=== FILE: period_store.dfy ===
/** The in-memory period store, `DataManager`: the current period, its project list, the
    per-period snapshots for the trend chart, and (for the browser build) the key-value
    storage it writes through. The desktop build's persistence call is a parameter: its
    `{ success, error }` reply is an `IpcResult`. */
module PeriodStore {
  import opened Results
  import opened Strings
  import opened Metrics
  import opened Stats
  import opened Backups
  import Sorting
  import Trend

  /** Chosen once at start-up: the desktop bridge is present or not. */
  datatype Backend = Electron | Web

  /** Browser storage as the store uses it: project lists and backups under string keys,
      and the serialised snapshot map under its own key. */
  datatype WebStorage = WebStorage(items: map<string, seq<ProjectRecord>>, monthly: Option<map<string, Snapshot>>)

  datatype Store = Store(
    backend: Backend,
    month: Option<string>,
    year: Option<string>,
    projects: seq<ProjectRecord>,
    monthlyData: map<string, Snapshot>,
    local: WebStorage)

  /** The reply of a save or delete in the desktop build; an empty `error` is a missing one. */
  datatype IpcResult = IpcOk | IpcFailed(error: string)

  /** The reply of a load in the desktop build. */
  datatype LoadReply = Loaded(data: seq<ProjectRecord>) | LoadFailed(error: string)

  datatype Period = Period(month: Option<string>, year: Option<string>, key: string)

  const SaveFailed := "Failed to save project"
  const DeleteFailed := "Failed to delete project"
  /** The TypeError raised when the index names no project. */
  const NoSuchProject := "Cannot read properties of undefined (reading 'projectName')"

  function Init(backend: Backend, local: WebStorage): (s: Store)
    ensures s.projects == [] && s.monthlyData == map[] && s.month == None && s.year == None
  {
    Store(backend, None, None, [], map[], local)
  }

  /** A template literal renders a missing period part as `null`. */
  function KeyPart(part: Option<string>): string
  {
    match part
    case None => "null"
    case Some(text) => text
  }

  function PeriodKey(year: string, month: string): string
  {
    year + "-" + month
  }

  function GetCurrentPeriod(s: Store): (p: Period)
    ensures p.month == s.month && p.year == s.year
    ensures p.key == PeriodKey(KeyPart(s.year), KeyPart(s.month))
  {
    Period(s.month, s.year, PeriodKey(KeyPart(s.year), KeyPart(s.month)))
  }

  /** Switches the period; nothing is loaded until `LoadFromLocalStorage`. */
  function SetCurrentPeriod(s: Store, month: string, year: string): (r: Store)
    ensures GetCurrentPeriod(r).key == PeriodKey(year, month)
    ensures r.projects == s.projects && r.monthlyData == s.monthlyData && r.local == s.local
  {
    s.(month := Some(month), year := Some(year))
  }

  /** The browser-storage key of a period's project list. */
  function ProjectsKey(periodKey: string): string
  {
    "profit_dashboard_" + periodKey
  }

  /** The snapshot of the current period mirrors the current list. */
  predicate Synced(s: Store)
  {
    var key := GetCurrentPeriod(s).key;
    key in s.monthlyData && s.monthlyData[key] == Snapshot(s.projects, GetSummaryStats(s.projects))
  }

  /** Snapshots of every period other than `key` are the same in `a` and `b`. */
  ghost predicate OtherPeriodsUnchanged(a: map<string, Snapshot>, b: map<string, Snapshot>, key: string)
  {
    && (forall k :: k != key ==> (k in a <==> k in b))
    && (forall k :: k in a && k != key ==> a[k] == b[k])
  }

  /** Refreshes the current period's snapshot; the browser build also writes the whole map out. */
  function UpdateMonthlyData(s: Store): (r: Store)
    ensures Synced(r)
    ensures OtherPeriodsUnchanged(s.monthlyData, r.monthlyData, GetCurrentPeriod(s).key)
    ensures r.local == if s.backend == Web then s.local.(monthly := Some(r.monthlyData)) else s.local
    ensures r.(monthlyData := s.monthlyData, local := s.local) == s
  {
    var key := GetCurrentPeriod(s).key;
    var monthly := s.monthlyData[key := Snapshot(s.projects, GetSummaryStats(s.projects))];
    s.(monthlyData := monthly,
       local := if s.backend == Web then s.local.(monthly := Some(monthly)) else s.local)
  }

  /** Browser build only: writes the list under its period key, a backup under a stamped key,
      and prunes the period's backups to the newest five. */
  method SaveToLocalStorage(s: Store, now: nat) returns (r: Store)
    requires s.backend == Web
    ensures Synced(r)
    ensures OtherPeriodsUnchanged(s.monthlyData, r.monthlyData, GetCurrentPeriod(s).key)
    ensures r.projects == s.projects && r.month == s.month && r.year == s.year && r.backend == s.backend
    ensures var key := GetCurrentPeriod(s).key;
            ProjectsKey(key) in r.local.items && r.local.items[ProjectsKey(key)] == s.projects
    ensures |BackupKeys(r.local.items, GetCurrentPeriod(s).key)| <= MaxBackups
    ensures r.local.monthly == Some(r.monthlyData)
    ensures StorageFramed(s.local.items, r.local.items, GetCurrentPeriod(s).key, now, s.projects)
  {
    var key := GetCurrentPeriod(s).key;
    var written := s.(local := s.local.(items := s.local.items[ProjectsKey(key) := s.projects]));
    r := UpdateMonthlyData(written);
    r := CreateBackup(r, now);
    ProjectsKeyIsNoBackup(key);
  }

  /** What a browser save writes and nothing more: the period's list key holds `list`, the
      one new backup key (if pruning kept it) holds `list` too, the other backups of the
      period may only disappear, and every other key keeps its value. */
  ghost predicate StorageFramed(before: map<string, seq<ProjectRecord>>, after: map<string, seq<ProjectRecord>>,
                                key: string, now: nat, list: seq<ProjectRecord>)
  {
    && ProjectsKey(key) in after && after[ProjectsKey(key)] == list
    && (BackupKey(key, now) in after ==> after[BackupKey(key, now)] == list)
    && after.Keys <= before.Keys + {ProjectsKey(key), BackupKey(key, now)}
    && (forall k :: k in before && k != ProjectsKey(key) && !StartsWith(k, BackupPrefix(key)) ==>
          k in after && after[k] == before[k])
    && (forall k :: k in after && k != ProjectsKey(key) && k != BackupKey(key, now) ==> after[k] == before[k])
  }

  /** The projects key of a period never looks like one of its backups. */
  lemma ProjectsKeyIsNoBackup(key: string)
    ensures !StartsWith(ProjectsKey(key), BackupPrefix(key))
  {
  }

  /** Browser build only: stores a copy of the list under a time-stamped key, then prunes. */
  method CreateBackup(s: Store, now: nat) returns (r: Store)
    requires s.backend == Web
    ensures r == s.(local := r.local) && r.local.monthly == s.local.monthly
    ensures |BackupKeys(r.local.items, GetCurrentPeriod(s).key)| <= MaxBackups
    ensures r.local.items.Keys <= s.local.items.Keys + {BackupKey(GetCurrentPeriod(s).key, now)}
    ensures var stamp := BackupKey(GetCurrentPeriod(s).key, now);
            stamp in r.local.items ==> r.local.items[stamp] == s.projects
    ensures forall k :: k in r.local.items && k != BackupKey(GetCurrentPeriod(s).key, now) ==>
              r.local.items[k] == s.local.items[k]
    ensures forall k :: k in s.local.items && !StartsWith(k, BackupPrefix(GetCurrentPeriod(s).key)) ==>
              k in r.local.items && r.local.items[k] == s.local.items[k]
  {
    var key := GetCurrentPeriod(s).key;
    var stamped := s.local.items[BackupKey(key, now) := s.projects];
    var kept := CleanOldBackups(stamped, key);
    r := s.(local := s.local.(items := kept));
  }

  /** JavaScript's `splice(index, 1)`: a negative index counts from the end (clamped to the
      first element), an index past the end removes nothing. */
  function SpliceOne<T>(s: seq<T>, index: int): (r: seq<T>)
    ensures 0 <= index < |s| ==> r == s[..index] + s[index + 1..]
    ensures -|s| <= index < 0 ==> r == s[..|s| + index] + s[|s| + index + 1..]
    ensures index >= |s| ==> r == s
    ensures index < -|s| && |s| > 0 ==> r == s[1..]
  {
    var start := if index < 0 then (if |s| + index < 0 then 0 else |s| + index)
                 else (if index > |s| then |s| else index);
    if start < |s| then s[..start] + s[start + 1..] else s
  }

  /** Computes the metrics, persists, and only then appends. In the desktop build a failed
      save raises the reply's error (or a default) and leaves the store as it was. */
  method AddProject(s: Store, d: ProjectInput, now: string, ipc: IpcResult, clock: nat)
    returns (r: Store, out: Result<ProjectRecord>)
    ensures s.backend == Electron && ipc.IpcFailed? ==>
              r == s && out == Err(OrElse(ipc.error, SaveFailed))
    ensures s.backend == Web || ipc == IpcOk ==> out == Ok(CalculateProjectMetrics(d, now))
    ensures out.Ok? ==> r.projects == s.projects + [out.value] && Synced(r)
    ensures out.Ok? ==> OtherPeriodsUnchanged(s.monthlyData, r.monthlyData, GetCurrentPeriod(s).key)
    ensures GetCurrentPeriod(r) == GetCurrentPeriod(s) && r.backend == s.backend
    ensures s.backend == Electron ==> r.local == s.local
    ensures s.backend == Web ==>
              StorageFramed(s.local.items, r.local.items, GetCurrentPeriod(s).key, clock, r.projects)
    ensures s.backend == Web ==> r.local.monthly == Some(r.monthlyData)
  {
    var p := CalculateProjectMetrics(d, now);
    if s.backend == Electron {
      match ipc {
        case IpcOk =>
          r := UpdateMonthlyData(s.(projects := s.projects + [p]));
          out := Ok(p);
        case IpcFailed(e) =>
          r := s;
          out := Err(OrElse(e, SaveFailed));
      }
    } else {
      r := SaveToLocalStorage(s.(projects := s.projects + [p]), clock);
      out := Ok(p);
    }
  }

  /** Persists the removal by the project's name, then removes by index. In the desktop build
      an index naming no project raises before anything is sent, and a failed delete leaves
      the store as it was. */
  method DeleteProject(s: Store, index: int, ipc: IpcResult, clock: nat)
    returns (r: Store, out: Result<()>)
    ensures s.backend == Electron && !(0 <= index < |s.projects|) ==>
              r == s && out == Err(NoSuchProject)
    ensures s.backend == Electron && 0 <= index < |s.projects| && ipc.IpcFailed? ==>
              r == s && out == Err(OrElse(ipc.error, DeleteFailed))
    ensures 0 <= index < |s.projects| && (s.backend == Web || ipc == IpcOk) ==>
              out.Ok? && r.projects == s.projects[..index] + s.projects[index + 1..]
    ensures s.backend == Web ==> out.Ok? && r.projects == SpliceOne(s.projects, index)
    ensures out.Ok? ==> Synced(r) && OtherPeriodsUnchanged(s.monthlyData, r.monthlyData, GetCurrentPeriod(s).key)
    ensures GetCurrentPeriod(r) == GetCurrentPeriod(s) && r.backend == s.backend
    ensures s.backend == Electron ==> r.local == s.local
    ensures s.backend == Web ==>
              StorageFramed(s.local.items, r.local.items, GetCurrentPeriod(s).key, clock, r.projects)
    ensures s.backend == Web ==> r.local.monthly == Some(r.monthlyData)
  {
    if s.backend == Electron {
      if !(0 <= index < |s.projects|) {
        r := s;
        out := Err(NoSuchProject);
      } else {
        match ipc {
          case IpcOk =>
            r := UpdateMonthlyData(s.(projects := s.projects[..index] + s.projects[index + 1..]));
            out := Ok(());
          case IpcFailed(e) =>
            r := s;
            out := Err(OrElse(e, DeleteFailed));
        }
      }
    } else {
      r := SaveToLocalStorage(s.(projects := SpliceOne(s.projects, index)), clock);
      out := Ok(());
    }
  }

  /** Loads the current period: the desktop reply's list (an empty one when the load failed),
      or the stored list of the browser build (empty when there is none); then adopts the stored
      snapshot map, if any, and refreshes the current period's snapshot. */
  method LoadFromLocalStorage(s: Store, reply: LoadReply) returns (r: Store, projects: seq<ProjectRecord>)
    ensures projects == r.projects && Synced(r)
    ensures s.backend == Electron ==> projects == (if reply.Loaded? then reply.data else [])
    ensures s.backend == Web ==>
              var key := ProjectsKey(GetCurrentPeriod(s).key);
              projects == if key in s.local.items then s.local.items[key] else []
    ensures OtherPeriodsUnchanged(if s.local.monthly.Some? then s.local.monthly.value else s.monthlyData,
                                  r.monthlyData, GetCurrentPeriod(s).key)
    ensures GetCurrentPeriod(r) == GetCurrentPeriod(s) && r.backend == s.backend
    ensures r.local.items == s.local.items
    ensures s.backend == Web ==> r.local.monthly == Some(r.monthlyData)
    ensures s.backend == Electron ==> r.local == s.local
  {
    var loaded: seq<ProjectRecord>;
    if s.backend == Electron {
      loaded := if reply.Loaded? then reply.data else [];
    } else {
      var key := ProjectsKey(GetCurrentPeriod(s).key);
      loaded := if key in s.local.items then s.local.items[key] else [];
    }
    var monthly := if s.local.monthly.Some? then s.local.monthly.value else s.monthlyData;
    r := UpdateMonthlyData(s.(projects := loaded, monthlyData := monthly));
    projects := r.projects;
  }

  function GetSummary(s: Store): (st: SummaryStats)
    ensures st.totalProjects == |s.projects|
    ensures s.projects == [] ==> st == SummaryStats(0, 0.0, 0.0, 0.0)
  {
    GetSummaryStats(s.projects)
  }

  method GetMonthlyTrend(s: Store) returns (trend: seq<Trend.TrendPoint>)
    ensures |trend| == if |s.monthlyData| < Trend.TrendLength then |s.monthlyData| else Trend.TrendLength
    ensures Sorting.StrictlySorted(Trend.Periods(trend))
    ensures forall i :: 0 <= i < |trend| ==>
              trend[i].period in s.monthlyData && trend[i].profit == s.monthlyData[trend[i].period].stats.netProfit
    ensures forall k :: k in s.monthlyData && k !in Trend.Periods(trend) ==>
              forall i :: 0 <= i < |trend| ==> Less(k, trend[i].period)
  {
    trend := Trend.GetMonthlyTrend(s.monthlyData);
  }
}

=== FILE: project_rows.dfy ===
/** The row logic of the spreadsheet backend's Projects sheet: the header, the row a save
    appends (inputs as values, derived columns as same-row formulas), the number-format rule,
    reading rows back, and delete-by-name. */
module ProjectRows {
  import opened Results
  import opened Sheets
  import opened Metrics

  const ColumnCount: nat := 15

  /** The fixed column order: name, the seven inputs, the six derived amounts, the stamp. */
  const ColName: nat := 1
  const ColEngineers: nat := 2
  const ColSalary: nat := 3
  const ColVisitCharge: nat := 4
  const ColVisits: nat := 5
  const ColTransport: nat := 6
  const ColPayment: nat := 7
  const ColOverhead: nat := 8
  const ColEngineerCost: nat := 9
  const ColVisitCost: nat := 10
  const ColDirectCost: nat := 11
  const ColOverheadCost: nat := 12
  const ColTotalCost: nat := 13
  const ColProfit: nat := 14
  const ColTimestamp: nat := 15

  /** Row 1 of a new Projects sheet. */
  function HeaderRow(): Row
  {
    Row([Text("Project Name"), Text("No. of Engineers"), Text("Engineer Salary/Month"),
         Text("CE Visit Charge"), Text("Visits/Month"), Text("Transport Cost/Month"),
         Text("Client Payment/Month"), Text("Overhead Allocation %"), Text("Engineer Cost"),
         Text("CE Visit Cost"), Text("Direct Cost"), Text("Overhead Cost"), Text("Total Cost"),
         Text("Profit"), Text("Timestamp")], [])
  }

  /** The display mask a saved row gets in column `col`: the loop visits columns 2 to 14,
      giving money columns the currency mask and the overhead column the percent mask. */
  function FormatFor(col: nat): (f: NumFmt)
    ensures f == Currency <==> col in {3, 4, 6, 7, 9, 10, 11, 12, 13, 14}
    ensures f == Percent <==> col == 8
    ensures f == General <==> col in {2, 5} || col < 2 || col > 14
  {
    if 2 <= col <= 14 then
      if col >= 3 && col != 5 && col != 8 && col != 2 then Currency
      else if col == 8 then Percent
      else General
    else General
  }

  function P(col: nat, n: nat): Formula
  {
    Ref(ProjectsSheet, col, n)
  }

  /** Columns I to N of row `n`: I=C, J=D*E, K=I+J+F, L=K*(H/100), M=K+L, N=G-M. */
  function DerivedFormulas(n: nat): (fs: seq<Formula>)
    ensures |fs| == 6 && forall i :: 0 <= i < 6 ==> SameRow(fs[i], n)
  {
    var fs := [P(ColSalary, n),
               Mul(P(ColVisitCharge, n), P(ColVisits, n)),
               Add(Add(P(ColEngineerCost, n), P(ColVisitCost, n)), P(ColTransport, n)),
               Mul(P(ColDirectCost, n), Div(P(ColOverhead, n), Lit(100.0))),
               Add(P(ColDirectCost, n), P(ColOverheadCost, n)),
               Sub(P(ColPayment, n), P(ColTotalCost, n))];
    assert SameRow(P(ColEngineerCost, n), n) && SameRow(P(ColVisitCost, n), n);
    assert SameRow(Add(P(ColEngineerCost, n), P(ColVisitCost, n)), n);
    assert SameRow(Div(P(ColOverhead, n), Lit(100.0)), n);
    fs
  }

  /** The row a save writes as row `n`; `now` is the stamp taken at save time. The derived
      amounts of `data` are not written: the row recomputes them. */
  function ProjectRow(data: ProjectRecord, n: nat, now: string): (row: Row)
    ensures |row.cells| == ColumnCount
    ensures CellAt(row, ColName) == Text(data.input.projectName)
  {
    Row(ProjectCells(data, n, now), RowFormats())
  }

  /** A saved row only refers to its own row, and its columns carry the masks of `FormatFor`. */
  lemma ProjectRowShape(data: ProjectRecord, n: nat, now: string)
    ensures RowIsLocal(ProjectRow(data, n, now), n)
    ensures forall c :: 1 <= c <= ColumnCount ==> FmtAt(ProjectRow(data, n, now), c) == FormatFor(c)
  {
    var cells := ProjectCells(data, n, now);
    var fs := DerivedFormulas(n);
    forall c | 0 <= c < |cells| && cells[c].Fx? ensures SameRow(cells[c].f, n) {
      assert cells[c].f == fs[c - 8];
    }
  }

  /** The fifteen cells of a saved row, in column order. */
  function ProjectCells(data: ProjectRecord, n: nat, now: string): (cells: seq<Cell>)
    ensures |cells| == ColumnCount
  {
    var d := data.input;
    var fs := DerivedFormulas(n);
    [Text(d.projectName), Num(d.numEngineers), Num(d.engineerSalary), Num(d.ceVisitCharge),
     Num(d.visitsPerMonth), Num(d.transportCost), Num(d.clientPayment),
     Num(d.overheadAllocation), Fx(fs[0]), Fx(fs[1]), Fx(fs[2]), Fx(fs[3]), Fx(fs[4]),
     Fx(fs[5]), Text(now)]
  }

  /** The masks of a saved row's fifteen columns. */
  function RowFormats(): (fmts: seq<NumFmt>)
    ensures |fmts| == ColumnCount
    ensures forall i :: 0 <= i < ColumnCount ==> fmts[i] == FormatFor(i + 1)
  {
    seq(ColumnCount, i requires 0 <= i < ColumnCount => FormatFor(i + 1))
  }

  /** Appends the row at `rowCount + 1`; every existing row stays where it was. */
  function AppendProject(sheet: seq<Row>, data: ProjectRecord, now: string): (r: seq<Row>)
    ensures |r| == |sheet| + 1 && r[..|sheet|] == sheet
    ensures r[|sheet|] == ProjectRow(data, |sheet| + 1, now)
    ensures LocalSheet(sheet) ==> LocalSheet(r)
  {
    ProjectRowShape(data, |sheet| + 1, now);
    sheet + [ProjectRow(data, |sheet| + 1, now)]
  }

  /** Formula depth enough for every column of a saved row. */
  const EvalDepth: nat := 10

  lemma EvalInputColumn(row: Row, c: nat, v: real, fuel: nat)
    requires fuel >= 1 && CellAt(row, c) == Num(v)
    ensures EvalLocal(row, c, fuel) == Number(v)
  {
  }

  /** One step of evaluation: a formula cell evaluates to its formula with one unit less fuel. */
  lemma EvalFormulaCell(row: Row, c: nat, f: Formula, fuel: nat)
    requires fuel >= 1 && CellAt(row, c) == Fx(f)
    ensures EvalLocal(row, c, fuel) == EvalLocalFormula(row, f, fuel - 1)
  {
  }

  lemma SavedInputCells(data: ProjectRecord, n: nat, now: string)
    ensures var row := ProjectRow(data, n, now);
            var d := data.input;
            && CellAt(row, ColEngineers) == Num(d.numEngineers)
            && CellAt(row, ColSalary) == Num(d.engineerSalary)
            && CellAt(row, ColVisitCharge) == Num(d.ceVisitCharge)
            && CellAt(row, ColVisits) == Num(d.visitsPerMonth)
  {
    assert ProjectRow(data, n, now).cells == ProjectCells(data, n, now);
  }

  lemma SavedOtherCells(data: ProjectRecord, n: nat, now: string)
    ensures var row := ProjectRow(data, n, now);
            var d := data.input;
            && CellAt(row, ColTransport) == Num(d.transportCost)
            && CellAt(row, ColPayment) == Num(d.clientPayment)
            && CellAt(row, ColOverhead) == Num(d.overheadAllocation)
            && CellAt(row, ColTimestamp) == Text(now)
  {
    assert ProjectRow(data, n, now).cells == ProjectCells(data, n, now);
  }

  lemma SavedFormulaCells(data: ProjectRecord, n: nat, now: string)
    ensures var row := ProjectRow(data, n, now);
            && CellAt(row, ColEngineerCost) == Fx(DerivedFormulas(n)[0])
            && CellAt(row, ColVisitCost) == Fx(DerivedFormulas(n)[1])
            && CellAt(row, ColDirectCost) == Fx(DerivedFormulas(n)[2])
            && CellAt(row, ColOverheadCost) == Fx(DerivedFormulas(n)[3])
            && CellAt(row, ColTotalCost) == Fx(DerivedFormulas(n)[4])
            && CellAt(row, ColProfit) == Fx(DerivedFormulas(n)[5])
  {
    assert ProjectRow(data, n, now).cells == ProjectCells(data, n, now);
  }

  lemma SavedRowCells(data: ProjectRecord, n: nat, now: string)
    ensures var row := ProjectRow(data, n, now);
            var d := data.input;
            && CellAt(row, ColEngineers) == Num(d.numEngineers)
            && CellAt(row, ColSalary) == Num(d.engineerSalary)
            && CellAt(row, ColVisitCharge) == Num(d.ceVisitCharge)
            && CellAt(row, ColVisits) == Num(d.visitsPerMonth)
            && CellAt(row, ColTransport) == Num(d.transportCost)
            && CellAt(row, ColPayment) == Num(d.clientPayment)
            && CellAt(row, ColOverhead) == Num(d.overheadAllocation)
            && CellAt(row, ColTimestamp) == Text(now)
            && CellAt(row, ColEngineerCost) == Fx(DerivedFormulas(n)[0])
            && CellAt(row, ColVisitCost) == Fx(DerivedFormulas(n)[1])
            && CellAt(row, ColDirectCost) == Fx(DerivedFormulas(n)[2])
            && CellAt(row, ColOverheadCost) == Fx(DerivedFormulas(n)[3])
            && CellAt(row, ColTotalCost) == Fx(DerivedFormulas(n)[4])
            && CellAt(row, ColProfit) == Fx(DerivedFormulas(n)[5])
  {
    SavedInputCells(data, n, now);
    SavedOtherCells(data, n, now);
    SavedFormulaCells(data, n, now);
  }

  lemma InputColumns(data: ProjectRecord, n: nat, now: string, f: nat)
    requires f >= 1
    ensures var row := ProjectRow(data, n, now);
            var d := data.input;
            && EvalLocal(row, ColSalary, f) == Number(d.engineerSalary)
            && EvalLocal(row, ColVisitCharge, f) == Number(d.ceVisitCharge)
            && EvalLocal(row, ColVisits, f) == Number(d.visitsPerMonth)
            && EvalLocal(row, ColTransport, f) == Number(d.transportCost)
            && EvalLocal(row, ColPayment, f) == Number(d.clientPayment)
            && EvalLocal(row, ColOverhead, f) == Number(d.overheadAllocation)
  {
    SavedRowCells(data, n, now);
  }

  lemma EngineerAndVisitColumns(data: ProjectRecord, n: nat, now: string, f: nat)
    requires f >= 2
    ensures var row := ProjectRow(data, n, now);
            var m := CalculateProjectMetrics(data.input, now);
            && EvalLocal(row, ColEngineerCost, f) == Number(m.engineerCost)
            && EvalLocal(row, ColVisitCost, f) == Number(m.ceVisitCost)
  {
    var row := ProjectRow(data, n, now);
    SavedRowCells(data, n, now);
    InputColumns(data, n, now, f - 1);
    EvalFormulaCell(row, ColEngineerCost, DerivedFormulas(n)[0], f);
    EvalFormulaCell(row, ColVisitCost, DerivedFormulas(n)[1], f);
  }

  lemma DirectColumn(data: ProjectRecord, n: nat, now: string, f: nat)
    requires f >= 3
    ensures EvalLocal(ProjectRow(data, n, now), ColDirectCost, f)
            == Number(CalculateProjectMetrics(data.input, now).directCost)
  {
    SavedRowCells(data, n, now);
    InputColumns(data, n, now, f - 1);
    EngineerAndVisitColumns(data, n, now, f - 1);
    var row := ProjectRow(data, n, now);
    var m := CalculateProjectMetrics(data.input, now);
    assert EvalLocalFormula(row, Add(P(ColEngineerCost, n), P(ColVisitCost, n)), f - 1)
        == Number(m.engineerCost + m.ceVisitCost);
    EvalFormulaCell(row, ColDirectCost, DerivedFormulas(n)[2], f);
  }

  lemma OverheadColumn(data: ProjectRecord, n: nat, now: string, f: nat)
    requires f >= 4
    ensures EvalLocal(ProjectRow(data, n, now), ColOverheadCost, f)
            == Number(CalculateProjectMetrics(data.input, now).overheadCost)
  {
    SavedFormulaCells(data, n, now);
    SavedOtherCells(data, n, now);
    DirectColumn(data, n, now, f - 1);
    var row := ProjectRow(data, n, now);
    var m := CalculateProjectMetrics(data.input, now);
    var share := Div(P(ColOverhead, n), Lit(100.0));
    EvalInputColumn(row, ColOverhead, data.input.overheadAllocation, f - 1);
    assert EvalLocalFormula(row, P(ColOverhead, n), f - 1) == Number(data.input.overheadAllocation);
    assert EvalLocalFormula(row, share, f - 1) == Number(data.input.overheadAllocation / 100.0);
    assert EvalLocalFormula(row, P(ColDirectCost, n), f - 1) == Number(m.directCost);
    assert EvalLocalFormula(row, Mul(P(ColDirectCost, n), share), f - 1)
        == Number(m.directCost * (data.input.overheadAllocation / 100.0));
    EvalFormulaCell(row, ColOverheadCost, DerivedFormulas(n)[3], f);
  }

  lemma TotalColumn(data: ProjectRecord, n: nat, now: string, f: nat)
    requires f >= 5
    ensures EvalLocal(ProjectRow(data, n, now), ColTotalCost, f)
            == Number(CalculateProjectMetrics(data.input, now).totalCost)
  {
    SavedRowCells(data, n, now);
    DirectColumn(data, n, now, f - 1);
    OverheadColumn(data, n, now, f - 1);
    EvalFormulaCell(ProjectRow(data, n, now), ColTotalCost, DerivedFormulas(n)[4], f);
  }

  lemma ProfitColumn(data: ProjectRecord, n: nat, now: string, f: nat)
    requires f >= 6
    ensures EvalLocal(ProjectRow(data, n, now), ColProfit, f)
            == Number(CalculateProjectMetrics(data.input, now).profit)
  {
    SavedRowCells(data, n, now);
    InputColumns(data, n, now, f - 1);
    TotalColumn(data, n, now, f - 1);
    EvalFormulaCell(ProjectRow(data, n, now), ColProfit, DerivedFormulas(n)[5], f);
  }

  /** Evaluating the six formulas of a saved row gives exactly the amounts the store's metric
      calculation derives from the same inputs. */
  lemma SavedRowEvaluates(data: ProjectRecord, n: nat, now: string, fuel: nat)
    requires fuel >= 6
    ensures var row := ProjectRow(data, n, now);
            var m := CalculateProjectMetrics(data.input, now);
            && EvalLocal(row, ColEngineerCost, fuel) == Number(m.engineerCost)
            && EvalLocal(row, ColVisitCost, fuel) == Number(m.ceVisitCost)
            && EvalLocal(row, ColDirectCost, fuel) == Number(m.directCost)
            && EvalLocal(row, ColOverheadCost, fuel) == Number(m.overheadCost)
            && EvalLocal(row, ColTotalCost, fuel) == Number(m.totalCost)
            && EvalLocal(row, ColProfit, fuel) == Number(m.profit)
  {
    EngineerAndVisitColumns(data, n, now, fuel);
    DirectColumn(data, n, now, fuel);
    OverheadColumn(data, n, now, fuel);
    TotalColumn(data, n, now, fuel);
    ProfitColumn(data, n, now, fuel);
  }

  // ---------------------------------------------------------------------------------------
  // Reading rows back

  /** The object `readProjectsFromWorkbook` builds from a row: the raw value of each column. */
  datatype RawProject = RawProject(
    projectName: Cell, numEngineers: Cell, engineerSalary: Cell, ceVisitCharge: Cell,
    visitsPerMonth: Cell, transportCost: Cell, clientPayment: Cell, overheadAllocation: Cell,
    engineerCost: Cell, ceVisitCost: Cell, directCost: Cell, overheadCost: Cell,
    totalCost: Cell, profit: Cell, timestamp: Cell)

  function RawOf(row: Row): RawProject
  {
    RawProject(CellAt(row, 1), CellAt(row, 2), CellAt(row, 3), CellAt(row, 4), CellAt(row, 5),
               CellAt(row, 6), CellAt(row, 7), CellAt(row, 8), CellAt(row, 9), CellAt(row, 10),
               CellAt(row, 11), CellAt(row, 12), CellAt(row, 13), CellAt(row, 14), CellAt(row, 15))
  }

  /** A row counts as a project when its column-1 value is truthy. */
  predicate IsNamed(row: Row)
  {
    Truthy(CellAt(row, ColName))
  }

  /** The row numbers of the named rows among `rows`, the first of which is row `base`; ascending. */
  function NamedIn(rows: seq<Row>, base: nat): (rs: seq<nat>)
    ensures forall i :: 0 <= i < |rs| ==> base <= rs[i] < base + |rows|
    decreases |rows|
  {
    if |rows| == 0 then []
    else (if IsNamed(rows[0]) then [base] else []) + NamedIn(rows[1..], base + 1)
  }

  lemma {:induction false} NamedInAscending(rows: seq<Row>, base: nat)
    ensures forall i, j :: 0 <= i < j < |NamedIn(rows, base)| ==> NamedIn(rows, base)[i] < NamedIn(rows, base)[j]
    decreases |rows|
  {
    if |rows| > 0 {
      var rest := NamedIn(rows[1..], base + 1);
      NamedInAscending(rows[1..], base + 1);
      var hs := if IsNamed(rows[0]) then [base] else [];
      var all := hs + rest;
      assert NamedIn(rows, base) == all;
      forall i, j | 0 <= i < j < |all| ensures all[i] < all[j] {
        assert all[j] == rest[j - |hs|];
        assert rest[j - |hs|] >= base + 1;
        if i >= |hs| {
          assert all[i] == rest[i - |hs|];
        } else {
          assert all[i] == base;
        }
      }
    }
  }

  /** Only named rows are listed. */
  lemma {:induction false} NamedInOnlyNamed(rows: seq<Row>, base: nat)
    ensures forall i :: 0 <= i < |NamedIn(rows, base)| ==> IsNamed(rows[NamedIn(rows, base)[i] - base])
    decreases |rows|
  {
    if |rows| > 0 {
      var rest := NamedIn(rows[1..], base + 1);
      NamedInOnlyNamed(rows[1..], base + 1);
      var hs := if IsNamed(rows[0]) then [base] else [];
      assert NamedIn(rows, base) == hs + rest;
      forall i | 0 <= i < |hs| + |rest|
        ensures IsNamed(rows[(hs + rest)[i] - base])
      {
        if i >= |hs| {
          var r := rest[i - |hs|];
          assert (hs + rest)[i] == r;
          assert IsNamed(rows[1..][r - (base + 1)]);
          assert rows[1..][r - (base + 1)] == rows[r - base];
        }
      }
    }
  }

  /** Every named row is listed. */
  lemma {:induction false} NamedInAllNamed(rows: seq<Row>, base: nat)
    ensures forall j :: 0 <= j < |rows| && IsNamed(rows[j]) ==> base + j in NamedIn(rows, base)
    decreases |rows|
  {
    if |rows| > 0 {
      var rest := NamedIn(rows[1..], base + 1);
      NamedInAllNamed(rows[1..], base + 1);
      var hs := if IsNamed(rows[0]) then [base] else [];
      assert NamedIn(rows, base) == hs + rest;
      forall j | 0 <= j < |rows| && IsNamed(rows[j])
        ensures base + j in hs + rest
      {
        if j > 0 {
          assert rows[1..][j - 1] == rows[j];
        }
      }
    }
  }

  /** The numbers of the data rows (below the header) that hold a project. */
  function NamedRows(sheet: seq<Row>): (rs: seq<nat>)
    ensures forall i :: 0 <= i < |rs| ==> 2 <= rs[i] <= |sheet|
  {
    if |sheet| == 0 then [] else NamedIn(sheet[1..], 2)
  }

  /** The listed rows ascend. */
  lemma NamedRowsAscending(sheet: seq<Row>)
    ensures var rs := NamedRows(sheet);
            forall i, j :: 0 <= i < j < |rs| ==> rs[i] < rs[j]
  {
    if |sheet| > 0 {
      assert NamedRows(sheet) == NamedIn(sheet[1..], 2);
      NamedInAscending(sheet[1..], 2);
    }
  }

  /** Every listed row is named. */
  lemma NamedRowsOnlyNamed(sheet: seq<Row>)
    ensures var rs := NamedRows(sheet);
            forall i :: 0 <= i < |rs| ==> IsNamed(sheet[rs[i] - 1])
  {
    if |sheet| > 0 {
      var data := sheet[1..];
      var rs := NamedIn(data, 2);
      assert NamedRows(sheet) == rs;
      NamedInOnlyNamed(data, 2);
      forall i | 0 <= i < |rs| ensures IsNamed(sheet[rs[i] - 1]) {
        assert IsNamed(data[rs[i] - 2]);
        assert data[rs[i] - 2] == sheet[rs[i] - 1];
      }
    }
  }

  /** Every named data row is listed. */
  lemma NamedRowsAllNamed(sheet: seq<Row>)
    ensures forall j :: 1 <= j < |sheet| && IsNamed(sheet[j]) ==> j + 1 in NamedRows(sheet)
  {
    if |sheet| > 0 {
      var data := sheet[1..];
      var rs := NamedIn(data, 2);
      assert NamedRows(sheet) == rs;
      NamedInAllNamed(data, 2);
      forall j | 1 <= j < |sheet| && IsNamed(sheet[j]) ensures j + 1 in rs {
        assert data[j - 1] == sheet[j];
        assert 2 + (j - 1) in rs;
      }
    }
  }

  /** `f` applied to each named row, in row order. */
  function MapNamed<T>(rows: seq<Row>, f: Row -> T): seq<T>
    decreases |rows|
  {
    if |rows| == 0 then []
    else (if IsNamed(rows[0]) then [f(rows[0])] else []) + MapNamed(rows[1..], f)
  }

  function ReadRows(rows: seq<Row>): seq<RawProject>
  {
    MapNamed(rows, RawOf)
  }

  lemma {:induction false} MapNamedAppend<T>(a: seq<Row>, b: seq<Row>, f: Row -> T)
    ensures MapNamed(a + b, f) == MapNamed(a, f) + MapNamed(b, f)
    decreases |a|
  {
    if |a| > 0 {
      assert (a + b)[0] == a[0] && (a + b)[1..] == a[1..] + b;
      MapNamedAppend(a[1..], b, f);
    } else {
      assert a + b == b;
    }
  }

  lemma ReadRowsAppend(a: seq<Row>, b: seq<Row>)
    ensures ReadRows(a + b) == ReadRows(a) + ReadRows(b)
  {
    MapNamedAppend(a, b, RawOf);
  }

  /** The values of a head row and of the rows after it, concatenated, line up with the
      head's row number followed by the later rows' numbers. */
  lemma MapConsPointwise<T>(rows: seq<Row>, base: nat, hs: seq<nat>, rest: seq<nat>,
                            hv: seq<T>, tv: seq<T>, f: Row -> T)
    requires |rows| > 0 && |hs| == |hv| <= 1
    requires |hs| == 1 ==> hs[0] == base && hv[0] == f(rows[0])
    requires |tv| == |rest|
    requires forall i :: 0 <= i < |rest| ==>
               base + 1 <= rest[i] < base + |rows| && tv[i] == f(rows[1..][rest[i] - (base + 1)])
    ensures |hv + tv| == |hs + rest|
    ensures forall i :: 0 <= i < |hs + rest| ==>
              base <= (hs + rest)[i] < base + |rows| && (hv + tv)[i] == f(rows[(hs + rest)[i] - base])
  {
    forall i | 0 <= i < |hs + rest|
      ensures base <= (hs + rest)[i] < base + |rows| && (hv + tv)[i] == f(rows[(hs + rest)[i] - base])
    {
      if i >= |hs| {
        var j := i - |hs|;
        assert (hs + rest)[i] == rest[j] && (hv + tv)[i] == tv[j];
        assert rows[1..][rest[j] - (base + 1)] == rows[rest[j] - base];
      }
    }
  }

  lemma {:induction false} MapNamedValues<T>(rows: seq<Row>, base: nat, f: Row -> T)
    ensures |MapNamed(rows, f)| == |NamedIn(rows, base)|
    ensures forall i :: 0 <= i < |NamedIn(rows, base)| ==>
              MapNamed(rows, f)[i] == f(rows[NamedIn(rows, base)[i] - base])
    decreases |rows|
  {
    if |rows| > 0 {
      var rest := NamedIn(rows[1..], base + 1);
      var tail := MapNamed(rows[1..], f);
      MapNamedValues(rows[1..], base + 1, f);
      var head := if IsNamed(rows[0]) then [f(rows[0])] else [];
      var hs := if IsNamed(rows[0]) then [base] else [];
      assert MapNamed(rows, f) == head + tail;
      assert NamedIn(rows, base) == hs + rest;
      MapConsPointwise(rows, base, hs, rest, head, tail, f);
    }
  }

  /** `readProjectsFromWorkbook`: skips the header row and every row whose name is falsy,
      keeps sheet order, and maps columns 1 to 15 onto the record's fields. */
  function ReadProjects(sheet: seq<Row>): (ps: seq<RawProject>)
    ensures |ps| == |NamedRows(sheet)|
    ensures forall i :: 0 <= i < |ps| ==> ps[i] == RawOf(sheet[NamedRows(sheet)[i] - 1])
  {
    if |sheet| == 0 then []
    else
      MapNamedValues(sheet[1..], 2, RawOf);
      var rs := NamedRows(sheet);
      assert forall i :: 0 <= i < |rs| ==> sheet[1..][rs[i] - 2] == sheet[rs[i] - 1];
      ReadRows(sheet[1..])
  }

  /** Reading after an append sees the earlier projects and then the new row, when it is named. */
  lemma ReadAfterAppend(sheet: seq<Row>, data: ProjectRecord, now: string)
    requires |sheet| >= 1
    ensures var row := ProjectRow(data, |sheet| + 1, now);
            ReadProjects(AppendProject(sheet, data, now))
            == ReadProjects(sheet) + (if |data.input.projectName| > 0 then [RawOf(row)] else [])
  {
    var row := ProjectRow(data, |sheet| + 1, now);
    assert AppendProject(sheet, data, now)[1..] == sheet[1..] + [row];
    ReadRowsAppend(sheet[1..], [row]);
    assert [row][1..] == [];
    assert ReadRows([row]) == (if IsNamed(row) then [RawOf(row)] else []) + ReadRows([]);
  }

  /** The derived columns read back as formulas, not as the amounts: the read gives the total
      cost of a just-saved project as a formula object. */
  lemma ReadBackIsFormula(sheet: seq<Row>, data: ProjectRecord, now: string)
    requires |sheet| >= 1 && |data.input.projectName| > 0
    ensures var ps := ReadProjects(AppendProject(sheet, data, now));
            |ps| > 0 && ps[|ps| - 1].totalCost.Fx? && ps[|ps| - 1].profit.Fx?
            && !ps[|ps| - 1].totalCost.Num?
  {
    ReadAfterAppend(sheet, data, now);
  }

  // ---------------------------------------------------------------------------------------
  // Delete by name

  predicate NameIs(row: Row, name: string)
  {
    CellAt(row, ColName) == Text(name)
  }

  /** The visit of rows `k` on, overwriting `found` at each row whose name is `name`. */
  function ScanFrom(sheet: seq<Row>, name: string, k: nat, found: nat): (m: nat)
    requires 2 <= k
    requires found == 0 || (2 <= found < k && found <= |sheet| && NameIs(sheet[found - 1], name))
    ensures m == found || (k <= m <= |sheet| && NameIs(sheet[m - 1], name))
    ensures m > 0 ==> 2 <= m <= |sheet| && NameIs(sheet[m - 1], name)
    ensures forall i :: k - 1 <= i < |sheet| && NameIs(sheet[i], name) ==> i < m
    ensures m == 0 ==> forall i :: k - 1 <= i < |sheet| ==> !NameIs(sheet[i], name)
    decreases |sheet| + 1 - k
  {
    if k > |sheet| then found
    else ScanFrom(sheet, name, k + 1, if NameIs(sheet[k - 1], name) then k else found)
  }

  /** The row `deleteProject` removes: the last data row named `name`, or 0 for none. */
  function LastMatch(sheet: seq<Row>, name: string): (m: nat)
    ensures m > 0 ==> 2 <= m <= |sheet| && NameIs(sheet[m - 1], name)
    ensures m > 0 ==> forall i :: m <= i < |sheet| ==> !NameIs(sheet[i], name)
    ensures m == 0 ==> forall i :: 1 <= i < |sheet| ==> !NameIs(sheet[i], name)
  {
    ScanFrom(sheet, name, 2, 0)
  }

  /** `spliceRows(m, 1)` as the code calls it: the rows below move up one and keep their
      formulas, which still name their old row numbers. */
  function DeleteRowAsWritten(sheet: seq<Row>, name: string): (r: seq<Row>)
    ensures LastMatch(sheet, name) == 0 ==> r == sheet
    ensures var m := LastMatch(sheet, name);
            m > 0 ==> && |r| == |sheet| - 1 && r[..m - 1] == sheet[..m - 1]
                      && forall j :: m - 1 <= j < |r| ==> r[j] == sheet[j + 1]
  {
    var m := LastMatch(sheet, name);
    if m == 0 then sheet else sheet[..m - 1] + sheet[m..]
  }

  /** The rows from `start` on, each moved to its row number with its formulas retargeted. */
  function MoveRows(rows: seq<Row>, start: nat): (moved: seq<Row>)
    ensures |moved| == |rows|
    ensures forall i :: 0 <= i < |rows| ==> moved[i] == MoveRow(rows[i], start + i)
  {
    seq(|rows|, i requires 0 <= i < |rows| => MoveRow(rows[i], start + i))
  }

  /** Delete-by-name with the rows below re-pointed at their new row numbers. */
  function DeleteRow(sheet: seq<Row>, name: string): (r: seq<Row>)
    ensures LastMatch(sheet, name) == 0 ==> r == sheet
    ensures LastMatch(sheet, name) > 0 ==> |r| == |sheet| - 1
  {
    var m := LastMatch(sheet, name);
    if m == 0 then sheet else sheet[..m - 1] + MoveRows(sheet[m..], m)
  }

  /** Rows above the deleted one stay; every row below moves up one, its formulas following it. */
  lemma DeleteRowShape(sheet: seq<Row>, name: string)
    requires LastMatch(sheet, name) > 0
    ensures var m := LastMatch(sheet, name);
            var r := DeleteRow(sheet, name);
            && r[..m - 1] == sheet[..m - 1]
            && forall i :: m - 1 <= i < |r| ==> r[i] == MoveRow(sheet[i + 1], i + 1)
  {
    var m := LastMatch(sheet, name);
    var r := DeleteRow(sheet, name);
    var moved := MoveRows(sheet[m..], m);
    assert r == sheet[..m - 1] + moved;
    forall i | m - 1 <= i < |r| ensures r[i] == MoveRow(sheet[i + 1], i + 1) {
      assert r[i] == moved[i - (m - 1)];
      assert sheet[m..][i - (m - 1)] == sheet[i + 1];
    }
  }

  /** Rows that were self-contained one row further down stay so once moved up with their
      formulas retargeted. */
  lemma MoveRowsLocal(rows: seq<Row>, start: nat)
    requires forall i :: 0 <= i < |rows| ==> RowIsLocal(rows[i], start + i + 1)
    ensures forall i :: 0 <= i < |rows| ==> RowIsLocal(MoveRows(rows, start)[i], start + i)
  {
    forall i | 0 <= i < |rows| ensures RowIsLocal(MoveRows(rows, start)[i], start + i) {
      MoveRowLocal(rows[i], start + i + 1, start + i);
    }
  }

  /** Self-contained rows above, followed by rows self-contained at the numbers they land on,
      make a self-contained sheet. */
  lemma LocalConcat(above: seq<Row>, moved: seq<Row>)
    requires forall i :: 0 <= i < |above| ==> RowIsLocal(above[i], i + 1)
    requires forall i :: 0 <= i < |moved| ==> RowIsLocal(moved[i], |above| + i + 1)
    ensures LocalSheet(above + moved)
  {
    var r := above + moved;
    forall i | 0 <= i < |r| ensures RowIsLocal(r[i], i + 1) {
      if i < |above| {
        assert r[i] == above[i];
      } else {
        assert r[i] == moved[i - |above|];
      }
    }
  }

  /** Taking row `m` out of a self-contained sheet and moving the rows below it up with
      their formulas retargeted leaves a self-contained sheet. */
  lemma RemoveAtLocal(sheet: seq<Row>, m: nat)
    requires LocalSheet(sheet) && 1 <= m <= |sheet|
    ensures LocalSheet(sheet[..m - 1] + MoveRows(sheet[m..], m))
  {
    var above := sheet[..m - 1];
    var below := sheet[m..];
    forall i | 0 <= i < |above| ensures RowIsLocal(above[i], i + 1) {
      assert above[i] == sheet[i];
    }
    forall i | 0 <= i < |below| ensures RowIsLocal(below[i], m + i + 1) {
      assert below[i] == sheet[m + i];
    }
    MoveRowsLocal(below, m);
    LocalConcat(above, MoveRows(below, m));
  }

  /** Unlike the splice as written, the corrected delete keeps every row self-contained. */
  lemma DeleteRowLocal(sheet: seq<Row>, name: string)
    requires LocalSheet(sheet)
    ensures LocalSheet(DeleteRow(sheet, name))
  {
    var m := LastMatch(sheet, name);
    if m > 0 {
      RemoveAtLocal(sheet, m);
    }
  }

  // ---------------------------------------------------------------------------------------
  // Loading with the derived columns evaluated

  /** Column `col` of a row evaluated on its own, as a number; an empty cell reads as zero. */
  function NumberAt(row: Row, col: nat): Option<real>
  {
    AsNumber(EvalLocal(row, col, EvalDepth))
  }

  /** A row as a project record, every numeric column evaluated; `None` when the name or the
      stamp is not text or a numeric column does not evaluate to a number. */
  function LoadRow(row: Row): (p: Option<ProjectRecord>)
    ensures p.Some? ==> CellAt(row, ColName) == Text(p.value.input.projectName)
  {
    match (CellAt(row, ColName), CellAt(row, ColTimestamp))
    case (Text(name), Text(stamp)) =>
      var xs := NumbersOf(row);
      if forall i :: 0 <= i < 13 ==> xs[i].Some? then Some(RecordOf(name, xs, stamp)) else None
    case _ => None
  }

  /** Columns 2 to 14 of a row as numbers. */
  function NumbersOf(row: Row): (xs: seq<Option<real>>)
    ensures |xs| == 13
  {
    seq(13, i requires 0 <= i < 13 => NumberAt(row, i + 2))
  }

  function RecordOf(name: string, xs: seq<Option<real>>, stamp: string): ProjectRecord
    requires |xs| == 13 && forall i :: 0 <= i < 13 ==> xs[i].Some?
  {
    ProjectRecord(
      ProjectInput(name, xs[0].value, xs[1].value, xs[2].value, xs[3].value, xs[4].value,
                   xs[5].value, xs[6].value),
      xs[7].value, xs[8].value, xs[9].value, xs[10].value, xs[11].value, xs[12].value, stamp)
  }

  /** Both lists when both loaded, otherwise nothing. */
  function Join(a: Option<seq<ProjectRecord>>, b: Option<seq<ProjectRecord>>): (r: Option<seq<ProjectRecord>>)
    ensures r.Some? <==> a.Some? && b.Some?
    ensures r.Some? ==> r.value == a.value + b.value
  {
    match (a, b)
    case (Some(x), Some(y)) => Some(x + y)
    case _ => None
  }

  /** The named rows loaded one by one with `load`; nothing as soon as one of them fails. */
  function LoadWith(rows: seq<Row>, load: Row -> Option<ProjectRecord>): Option<seq<ProjectRecord>>
    decreases |rows|
  {
    if |rows| == 0 then Some([]) else Join(LoadOne(rows[0], load), LoadWith(rows[1..], load))
  }

  /** One row's contribution: nothing to add for a nameless row, its record for a named one. */
  function LoadOne(row: Row, load: Row -> Option<ProjectRecord>): Option<seq<ProjectRecord>>
  {
    if IsNamed(row) then (match load(row) case Some(p) => Some([p]) case None => None) else Some([])
  }

  function LoadRows(rows: seq<Row>): Option<seq<ProjectRecord>>
  {
    LoadWith(rows, LoadRow)
  }

  lemma {:induction false} LoadWithAppend(a: seq<Row>, b: seq<Row>, load: Row -> Option<ProjectRecord>)
    ensures LoadWith(a + b, load) == Join(LoadWith(a, load), LoadWith(b, load))
    decreases |a|
  {
    if |a| > 0 {
      assert (a + b)[0] == a[0] && (a + b)[1..] == a[1..] + b;
      LoadWithAppend(a[1..], b, load);
      var h := LoadOne(a[0], load);
      if h.Some? && LoadWith(a[1..], load).Some? && LoadWith(b, load).Some? {
        assert h.value + (LoadWith(a[1..], load).value + LoadWith(b, load).value)
            == (h.value + LoadWith(a[1..], load).value) + LoadWith(b, load).value;
      }
    } else {
      assert a + b == b;
      if LoadWith(b, load).Some? {
        assert [] + LoadWith(b, load).value == LoadWith(b, load).value;
      }
    }
  }

  lemma LoadRowsAppend(a: seq<Row>, b: seq<Row>)
    ensures LoadRows(a + b) == Join(LoadRows(a), LoadRows(b))
  {
    LoadWithAppend(a, b, LoadRow);
  }

  /** The load succeeds exactly when every named row loads. */
  lemma {:induction false} LoadWithSome(rows: seq<Row>, load: Row -> Option<ProjectRecord>)
    ensures LoadWith(rows, load).Some?
            <==> forall j :: 0 <= j < |rows| && IsNamed(rows[j]) ==> load(rows[j]).Some?
    decreases |rows|
  {
    if |rows| > 0 {
      LoadWithSome(rows[1..], load);
      assert LoadWith(rows, load) == Join(LoadOne(rows[0], load), LoadWith(rows[1..], load));
      assert forall j :: 1 <= j < |rows| ==> rows[1..][j - 1] == rows[j];
    }
  }

  /** The records of a head row and of the rows after it, concatenated, line up with the
      head's row number followed by the later rows' numbers. */
  lemma ConsPointwise(rows: seq<Row>, base: nat, hs: seq<nat>, rest: seq<nat>,
                      hv: seq<ProjectRecord>, tv: seq<ProjectRecord>, load: Row -> Option<ProjectRecord>)
    requires |rows| > 0 && |hs| == |hv| <= 1
    requires |hs| == 1 ==> hs[0] == base && load(rows[0]) == Some(hv[0])
    requires |tv| == |rest|
    requires forall i :: 0 <= i < |rest| ==>
               base + 1 <= rest[i] < base + |rows| && load(rows[1..][rest[i] - (base + 1)]) == Some(tv[i])
    ensures |hv + tv| == |hs + rest|
    ensures forall i :: 0 <= i < |hs + rest| ==>
              base <= (hs + rest)[i] < base + |rows| && load(rows[(hs + rest)[i] - base]) == Some((hv + tv)[i])
  {
    forall i | 0 <= i < |hs + rest|
      ensures base <= (hs + rest)[i] < base + |rows| && load(rows[(hs + rest)[i] - base]) == Some((hv + tv)[i])
    {
      if i >= |hs| {
        var j := i - |hs|;
        assert (hs + rest)[i] == rest[j] && (hv + tv)[i] == tv[j];
        assert rows[1..][rest[j] - (base + 1)] == rows[rest[j] - base];
      }
    }
  }

  /** A successful load lists the named rows' records in row order. */
  lemma {:induction false} LoadWithValues(rows: seq<Row>, base: nat, load: Row -> Option<ProjectRecord>)
    ensures var rs := NamedIn(rows, base);
            var ps := LoadWith(rows, load);
            ps.Some? ==> |ps.value| == |rs|
                         && forall i :: 0 <= i < |rs| ==> load(rows[rs[i] - base]) == Some(ps.value[i])
    decreases |rows|
  {
    if |rows| > 0 && LoadWith(rows, load).Some? {
      var rest := NamedIn(rows[1..], base + 1);
      LoadWithValues(rows[1..], base + 1, load);
      var h := LoadOne(rows[0], load);
      var tail := LoadWith(rows[1..], load);
      assert LoadWith(rows, load) == Join(h, tail);
      var hs := if IsNamed(rows[0]) then [base] else [];
      assert NamedIn(rows, base) == hs + rest;
      ConsPointwise(rows, base, hs, rest, h.value, tail.value, load);
    }
  }

  /** The corrected read-back: the projects of the data rows with their derived columns
      evaluated, in sheet order; nothing when some named row does not load. */
  function LoadProjects(sheet: seq<Row>): Option<seq<ProjectRecord>>
  {
    if |sheet| == 0 then Some([]) else LoadRows(sheet[1..])
  }

  /** The load succeeds exactly when every named data row loads, and then lists the named
      rows' records in sheet order. */
  lemma LoadProjectsNamed(sheet: seq<Row>)
    ensures var r := LoadProjects(sheet);
            r.Some? <==> forall j :: 1 <= j < |sheet| && IsNamed(sheet[j]) ==> LoadRow(sheet[j]).Some?
    ensures var r := LoadProjects(sheet);
            r.Some? ==> |r.value| == |NamedRows(sheet)|
                        && forall i :: 0 <= i < |r.value| ==> LoadRow(sheet[NamedRows(sheet)[i] - 1]) == Some(r.value[i])
  {
    if |sheet| > 0 {
      var data := sheet[1..];
      LoadWithSome(data, LoadRow);
      LoadWithValues(data, 2, LoadRow);
      var rs := NamedRows(sheet);
      assert rs == NamedIn(data, 2);
      assert forall i :: 0 <= i < |rs| ==> data[rs[i] - 2] == sheet[rs[i] - 1];
      assert forall j :: 1 <= j < |sheet| ==> data[j - 1] == sheet[j];
    }
  }

  /** A saved row loads as the record the metric calculation gives for its inputs and stamp. */
  lemma SavedRowNumbers(data: ProjectRecord, n: nat, now: string)
    ensures var d := data.input;
            var m := CalculateProjectMetrics(d, now);
            NumbersOf(ProjectRow(data, n, now))
            == [Some(d.numEngineers), Some(d.engineerSalary), Some(d.ceVisitCharge),
                Some(d.visitsPerMonth), Some(d.transportCost), Some(d.clientPayment),
                Some(d.overheadAllocation), Some(m.engineerCost), Some(m.ceVisitCost),
                Some(m.directCost), Some(m.overheadCost), Some(m.totalCost), Some(m.profit)]
  {
    var row := ProjectRow(data, n, now);
    SavedRowCells(data, n, now);
    InputColumns(data, n, now, EvalDepth);
    SavedRowEvaluates(data, n, now, EvalDepth);
    EvalInputColumn(row, ColEngineers, data.input.numEngineers, EvalDepth);
  }

  lemma LoadSavedRow(data: ProjectRecord, n: nat, now: string)
    ensures LoadRow(ProjectRow(data, n, now)) == Some(CalculateProjectMetrics(data.input, now))
  {
    var row := ProjectRow(data, n, now);
    SavedRowCells(data, n, now);
    SavedRowNumbers(data, n, now);
    var xs := NumbersOf(row);
    assert forall i :: 0 <= i < 13 ==> xs[i].Some?;
  }

  /** Save then load: the loaded list grows by the saved project with its amounts recomputed
      from its inputs and stamped with the save time; a nameless row is not loaded. */
  lemma LoadAfterAppend(sheet: seq<Row>, data: ProjectRecord, now: string)
    requires |sheet| >= 1
    ensures LoadProjects(AppendProject(sheet, data, now))
            == Join(LoadProjects(sheet),
                    Some(if |data.input.projectName| > 0 then [CalculateProjectMetrics(data.input, now)] else []))
  {
    var row := ProjectRow(data, |sheet| + 1, now);
    var after := AppendProject(sheet, data, now);
    assert after[1..] == sheet[1..] + [row];
    LoadProjectsBody(sheet);
    LoadProjectsBody(after);
    LoadRowsAppend(sheet[1..], [row]);
    LoadSavedRow(data, |sheet| + 1, now);
    LoadRowsSingle(row);
  }

  lemma LoadProjectsBody(sheet: seq<Row>)
    requires |sheet| >= 1
    ensures LoadProjects(sheet) == LoadRows(sheet[1..])
  {
  }

  /** A single row loads as its record when named, as nothing to add when not. */
  lemma LoadRowsSingle(row: Row)
    ensures LoadRows([row]) == LoadOne(row, LoadRow)
  {
    assert [row][1..] == [];
    assert LoadWith([row], LoadRow) == Join(LoadOne(row, LoadRow), LoadWith([], LoadRow));
    if LoadOne(row, LoadRow).Some? {
      assert LoadOne(row, LoadRow).value + [] == LoadOne(row, LoadRow).value;
    }
  }

  /** For a record whose amounts already follow from its inputs, save then load gives the
      record back with only its stamp replaced by the save time. */
  lemma LoadAfterAppendConsistent(sheet: seq<Row>, data: ProjectRecord, now: string)
    requires |sheet| >= 1 && |data.input.projectName| > 0 && Consistent(data)
    requires LoadProjects(sheet).Some?
    ensures LoadProjects(AppendProject(sheet, data, now))
            == Some(LoadProjects(sheet).value + [data.(timestamp := now)])
  {
    LoadAfterAppend(sheet, data, now);
    ConsistentDetermined(data, CalculateProjectMetrics(data.input, now));
  }

  // ---------------------------------------------------------------------------------------
  // Delete, seen through the loader

  /** The list with its last record named `name` taken out; unchanged when none is. */
  function RemoveLastNamed(ps: seq<ProjectRecord>, name: string): (r: seq<ProjectRecord>)
    ensures (forall i :: 0 <= i < |ps| ==> ps[i].input.projectName != name) ==> r == ps
    decreases |ps|
  {
    if |ps| == 0 then []
    else if ps[|ps| - 1].input.projectName == name then ps[..|ps| - 1]
    else RemoveLastNamed(ps[..|ps| - 1], name) + [ps[|ps| - 1]]
  }

  /** The record taken out is the last one carrying the name. */
  lemma {:induction false} RemoveLastSplit(a: seq<ProjectRecord>, p: ProjectRecord, b: seq<ProjectRecord>, name: string)
    requires p.input.projectName == name
    requires forall i :: 0 <= i < |b| ==> b[i].input.projectName != name
    ensures RemoveLastNamed(a + [p] + b, name) == a + b
    decreases |b|
  {
    var ps := a + [p] + b;
    if |b| == 0 {
      assert ps[..|ps| - 1] == a;
      assert a + b == a;
    } else {
      var b' := b[..|b| - 1];
      assert ps[..|ps| - 1] == a + [p] + b';
      assert ps[|ps| - 1] == b[|b| - 1];
      RemoveLastSplit(a, p, b', name);
      assert a + b' + [b[|b| - 1]] == a + b;
    }
  }

  /** Records load only from named rows whose column-1 text is their name. */
  lemma {:induction false} LoadNamesAvoid(rows: seq<Row>, name: string)
    requires forall j :: 0 <= j < |rows| && IsNamed(rows[j]) ==> !NameIs(rows[j], name)
    requires LoadRows(rows).Some?
    ensures forall i :: 0 <= i < |LoadRows(rows).value| ==> LoadRows(rows).value[i].input.projectName != name
    decreases |rows|
  {
    if |rows| > 0 {
      var h := LoadOne(rows[0], LoadRow);
      var tail := LoadRows(rows[1..]);
      assert LoadRows(rows) == Join(h, tail);
      assert forall j :: 1 <= j < |rows| ==> rows[1..][j - 1] == rows[j];
      LoadNamesAvoid(rows[1..], name);
      var ps := LoadRows(rows).value;
      forall i | 0 <= i < |ps| ensures ps[i].input.projectName != name {
        if i < |h.value| {
          assert IsNamed(rows[0]) && ps[i] == LoadRow(rows[0]).value;
        } else {
          assert ps[i] == tail.value[i - |h.value|];
        }
      }
    }
  }

  lemma MoveRowCell(row: Row, r: nat, c: nat)
    ensures CellAt(MoveRow(row, r), c)
            == if CellAt(row, c).Fx? then Fx(Retarget(CellAt(row, c).f, r)) else CellAt(row, c)
  {
    if 1 <= c <= |row.cells| {
      assert MoveRow(row, r).cells[c - 1] == if row.cells[c - 1].Fx? then Fx(Retarget(row.cells[c - 1].f, r)) else row.cells[c - 1];
    }
  }

  /** A moved row loads as the same record and is named exactly when it was. */
  lemma LoadRowMoved(row: Row, r: nat)
    ensures IsNamed(MoveRow(row, r)) == IsNamed(row)
    ensures LoadRow(MoveRow(row, r)) == LoadRow(row)
  {
    var moved := MoveRow(row, r);
    MoveRowCell(row, r, ColName);
    MoveRowCell(row, r, ColTimestamp);
    forall i | 0 <= i < 13 ensures NumbersOf(moved)[i] == NumbersOf(row)[i] {
      MoveRowKeepsValues(row, r, i + 2, EvalDepth);
    }
    assert NumbersOf(moved) == NumbersOf(row);
  }

  lemma {:induction false} LoadRowsMoved(rows: seq<Row>, start: nat)
    ensures LoadRows(MoveRows(rows, start)) == LoadRows(rows)
    decreases |rows|
  {
    if |rows| > 0 {
      var moved := MoveRows(rows, start);
      assert moved[0] == MoveRow(rows[0], start);
      assert moved[1..] == MoveRows(rows[1..], start + 1);
      LoadRowMoved(rows[0], start);
      LoadRowsMoved(rows[1..], start + 1);
      assert LoadOne(moved[0], LoadRow) == LoadOne(rows[0], LoadRow);
      assert LoadRows(moved) == Join(LoadOne(moved[0], LoadRow), LoadRows(moved[1..]));
    }
  }

  /** Taking row `x` named `name` out from between `a` and `b`, with no row of `b` named so,
      removes the last record of that name from the loaded list. */
  lemma LoadSpliced(a: seq<Row>, x: Row, b: seq<Row>, start: nat, name: string)
    requires NameIs(x, name)
    requires forall j :: 0 <= j < |b| && IsNamed(b[j]) ==> !NameIs(b[j], name)
    requires LoadRows(a + [x] + b).Some?
    ensures LoadRows(a + MoveRows(b, start)) == Some(RemoveLastNamed(LoadRows(a + [x] + b).value, name))
  {
    LoadRowsAppend(a + [x], b);
    LoadRowsAppend(a, [x]);
    LoadRowsAppend(a, MoveRows(b, start));
    LoadRowsMoved(b, start);
    LoadRowsSingle(x);
    var la, lx, lb := LoadRows(a).value, LoadRows([x]).value, LoadRows(b).value;
    var ps := LoadRows(a + [x] + b).value;
    assert ps == la + lx + lb;
    LoadNamesAvoid(b, name);
    if IsNamed(x) {
      var px := LoadRow(x).value;
      assert lx == [px];
      RemoveLastSplit(la, px, lb, name);
    } else {
      assert lx == [] && name == "";
      assert ps == la + lb;
      var all := a + [x] + b;
      forall j | 0 <= j < |all| && IsNamed(all[j]) ensures !NameIs(all[j], name) {
      }
      LoadNamesAvoid(all, name);
    }
  }

  /** With no row named `name`, nothing loaded carries that name. */
  lemma LoadNoMatch(sheet: seq<Row>, name: string)
    requires |sheet| > 0 && LastMatch(sheet, name) == 0 && LoadProjects(sheet).Some?
    ensures RemoveLastNamed(LoadProjects(sheet).value, name) == LoadProjects(sheet).value
  {
    var data := sheet[1..];
    forall j | 0 <= j < |data| && IsNamed(data[j]) ensures !NameIs(data[j], name) {
      assert data[j] == sheet[j + 1];
    }
    LoadNamesAvoid(data, name);
  }

  lemma DeleteRowParts(sheet: seq<Row>, name: string)
    requires LastMatch(sheet, name) > 0
    ensures var m := LastMatch(sheet, name);
            && sheet[1..] == sheet[1..m - 1] + [sheet[m - 1]] + sheet[m..]
            && DeleteRow(sheet, name)[1..] == sheet[1..m - 1] + MoveRows(sheet[m..], m)
  {
  }

  /** Row by row, deleting by name takes exactly the last project of that name out of the
      loaded list, and every other project loads as before. */
  lemma LoadRowwiseAfterDelete(sheet: seq<Row>, name: string)
    requires LoadProjects(sheet).Some?
    ensures LoadProjects(DeleteRow(sheet, name)) == Some(RemoveLastNamed(LoadProjects(sheet).value, name))
  {
    var m := LastMatch(sheet, name);
    if |sheet| == 0 {
    } else if m == 0 {
      LoadNoMatch(sheet, name);
    } else {
      LoadMatchDeleted(sheet, name, m);
    }
  }

  lemma LoadMatchDeleted(sheet: seq<Row>, name: string, m: nat)
    requires m == LastMatch(sheet, name) && m > 0 && LoadProjects(sheet).Some?
    ensures LoadProjects(DeleteRow(sheet, name)) == Some(RemoveLastNamed(LoadProjects(sheet).value, name))
  {
    var a, x, b := sheet[1..m - 1], sheet[m - 1], sheet[m..];
    var after := DeleteRow(sheet, name);
    DeleteRowParts(sheet, name);
    BelowAvoids(sheet, name, m, b);
    assert LoadProjects(sheet) == LoadRows(a + [x] + b);
    assert LoadProjects(after) == LoadRows(a + MoveRows(b, m));
    LoadSpliced(a, x, b, m, name);
  }

  /** No row below the last match carries the name. */
  lemma BelowAvoids(sheet: seq<Row>, name: string, m: nat, b: seq<Row>)
    requires m == LastMatch(sheet, name) && m > 0 && b == sheet[m..]
    ensures forall j :: 0 <= j < |b| && IsNamed(b[j]) ==> !NameIs(b[j], name)
  {
    forall j | 0 <= j < |b| && IsNamed(b[j]) ensures !NameIs(b[j], name) {
      assert b[j] == sheet[m + j];
    }
  }

  // ---------------------------------------------------------------------------------------
  // Loading through the workbook

  /** Column `col` of row `r` of the projects sheet evaluated in the workbook, so that every
      reference reads the row it names; an empty cell reads as zero. */
  function NumberIn(wb: Workbook, r: nat, col: nat): Option<real>
  {
    AsNumber(EvalCell(wb, ProjectsSheet, col, r, EvalDepth))
  }

  /** Columns 2 to 14 of row `r`, evaluated in the workbook. */
  function NumbersIn(wb: Workbook, r: nat): (xs: seq<Option<real>>)
    ensures |xs| == 13
  {
    seq(13, i requires 0 <= i < 13 => NumberIn(wb, r, i + 2))
  }

  /** Row `r` of the projects sheet as a project record, its numeric columns evaluated in the
      workbook; `None` when the name or the stamp is not text or a column is not a number. */
  function LoadRowIn(wb: Workbook, r: nat): (p: Option<ProjectRecord>)
    requires 1 <= r <= |wb.projects|
    ensures p.Some? ==> NumberIn(wb, r, ColProfit) == Some(p.value.profit)
  {
    var row := wb.projects[r - 1];
    match (CellAt(row, ColName), CellAt(row, ColTimestamp))
    case (Text(name), Text(stamp)) =>
      var xs := NumbersIn(wb, r);
      if forall i :: 0 <= i < 13 ==> xs[i].Some? then Some(RecordOf(name, xs, stamp)) else None
    case _ => None
  }

  /** The named rows from row `r` down, each loaded with `LoadRowIn`. */
  function LoadFrom(wb: Workbook, r: nat): Option<seq<ProjectRecord>>
    requires r >= 1
    decreases |wb.projects| + 1 - r
  {
    if r > |wb.projects| then Some([])
    else
      var here := if IsNamed(wb.projects[r - 1])
                  then (match LoadRowIn(wb, r) case Some(p) => Some([p]) case None => None)
                  else Some([]);
      Join(here, LoadFrom(wb, r + 1))
  }

  /** The corrected `readProjectsFromWorkbook`: the named data rows in sheet order, with the
      derived columns evaluated as the workbook evaluates them; nothing when one does not load. */
  function LoadWorkbook(wb: Workbook): Option<seq<ProjectRecord>>
  {
    LoadFrom(wb, 2)
  }

  /** A self-contained row loads from the workbook as it loads on its own. */
  lemma LoadRowInLocal(wb: Workbook, r: nat)
    requires 1 <= r <= |wb.projects| && RowIsLocal(wb.projects[r - 1], r)
    ensures LoadRowIn(wb, r) == LoadRow(wb.projects[r - 1])
  {
    var row := wb.projects[r - 1];
    forall i | 0 <= i < 13 ensures NumbersIn(wb, r)[i] == NumbersOf(row)[i] {
      LocalAgrees(wb, r, i + 2, EvalDepth);
    }
    assert NumbersIn(wb, r) == NumbersOf(row);
  }

  lemma {:induction false} LoadFromLocal(wb: Workbook, r: nat)
    requires 1 <= r <= |wb.projects| + 1 && LocalSheet(wb.projects)
    ensures LoadFrom(wb, r) == LoadRows(wb.projects[r - 1..])
    decreases |wb.projects| + 1 - r
  {
    if r <= |wb.projects| {
      var rows := wb.projects[r - 1..];
      LoadRowInLocal(wb, r);
      LoadFromLocal(wb, r + 1);
      assert rows[0] == wb.projects[r - 1];
      assert rows[1..] == wb.projects[r..];
      assert LoadRows(rows) == Join(LoadOne(rows[0], LoadRow), LoadRows(rows[1..]));
    }
  }

  /** On a sheet whose rows are all self-contained, loading through the workbook and loading
      row by row give the same list. */
  lemma LoadWorkbookLocal(wb: Workbook)
    requires LocalSheet(wb.projects)
    ensures LoadWorkbook(wb) == LoadProjects(wb.projects)
  {
    if |wb.projects| > 0 {
      LoadFromLocal(wb, 2);
    }
  }

  /** Deleting by name, then loading the workbook, takes exactly the last project of that name
      out of the loaded list; every other project loads with the amounts it had, and the sheet
      stays self-contained. */
  lemma LoadAfterDelete(wb: Workbook, name: string)
    requires LocalSheet(wb.projects) && LoadWorkbook(wb).Some?
    ensures var after := wb.(projects := DeleteRow(wb.projects, name));
            && LocalSheet(after.projects)
            && LoadWorkbook(after) == Some(RemoveLastNamed(LoadWorkbook(wb).value, name))
  {
    var after := wb.(projects := DeleteRow(wb.projects, name));
    LoadWorkbookLocal(wb);
    DeleteRowLocal(wb.projects, name);
    LoadWorkbookLocal(after);
    LoadRowwiseAfterDelete(wb.projects, name);
  }

  // ---------------------------------------------------------------------------------------
  // The row shift of the splice as written

  /** The sheet two saves leave behind: `first` in row 2 and `second` in row 3. */
  function TwoProjectSheet(first: ProjectRecord, second: ProjectRecord, t1: string, t2: string): seq<Row>
  {
    AppendProject(AppendProject([HeaderRow()], first, t1), second, t2)
  }

  lemma TwoProjectSheetFacts(first: ProjectRecord, second: ProjectRecord, t1: string, t2: string)
    requires first.input.projectName != second.input.projectName
    ensures var sheet := TwoProjectSheet(first, second, t1, t2);
            && |sheet| == 3
            && LastMatch(sheet, first.input.projectName) == 2
            && sheet[2] == ProjectRow(second, 3, t2)
            && LocalSheet(sheet)
  {
    var sheet := TwoProjectSheet(first, second, t1, t2);
    var name := first.input.projectName;
    assert sheet == [HeaderRow(), ProjectRow(first, 2, t1), ProjectRow(second, 3, t2)];
    assert NameIs(sheet[1], name);
    assert !NameIs(sheet[2], name);
    assert RowIsLocal(HeaderRow(), 1);
    assert LocalSheet([HeaderRow()]);
  }

  /** After deleting the first of two projects with the splice as written, the second one's
      row (now row 2) still reads row 3, which no longer exists: its engineer cost evaluates
      blank and its profit to zero, whatever its inputs. */
  lemma SpliceLeavesStaleReferences(first: ProjectRecord, second: ProjectRecord, t1: string, t2: string,
                                     summary: seq<Row>, rules: seq<CfRange>)
    requires first.input.projectName != second.input.projectName
    ensures var after := DeleteRowAsWritten(TwoProjectSheet(first, second, t1, t2), first.input.projectName);
            var wb := Workbook(after, summary, rules);
            && EvalCell(wb, ProjectsSheet, ColEngineerCost, 2, EvalDepth) == Blank
            && EvalCell(wb, ProjectsSheet, ColProfit, 2, EvalDepth) == Number(0.0)
  {
    var sheet := TwoProjectSheet(first, second, t1, t2);
    TwoProjectSheetFacts(first, second, t1, t2);
    var after := DeleteRowAsWritten(sheet, first.input.projectName);
    assert after == [sheet[0], sheet[2]];
    var wb := Workbook(after, summary, rules);
    SavedFormulaCells(second, 3, t2);
    var fs := DerivedFormulas(3);
    assert CellOf(after, ColEngineerCost, 2) == Fx(fs[0]);
    assert EvalCell(wb, ProjectsSheet, ColSalary, 3, EvalDepth - 1) == Blank;
    assert CellOf(after, ColProfit, 2) == Fx(fs[5]);
    assert EvalCell(wb, ProjectsSheet, ColPayment, 3, EvalDepth - 1) == Blank;
    assert EvalCell(wb, ProjectsSheet, ColTotalCost, 3, EvalDepth - 1) == Blank;
  }

  /** With the corrected delete the second project's row 2 evaluates to its own amounts. */
  lemma DeleteRowKeepsShiftedRow(first: ProjectRecord, second: ProjectRecord, t1: string, t2: string,
                                  summary: seq<Row>, rules: seq<CfRange>)
    requires first.input.projectName != second.input.projectName
    ensures var after := DeleteRow(TwoProjectSheet(first, second, t1, t2), first.input.projectName);
            var wb := Workbook(after, summary, rules);
            var m := CalculateProjectMetrics(second.input, t2);
            && EvalCell(wb, ProjectsSheet, ColEngineerCost, 2, EvalDepth) == Number(m.engineerCost)
            && EvalCell(wb, ProjectsSheet, ColProfit, 2, EvalDepth) == Number(m.profit)
  {
    var sheet := TwoProjectSheet(first, second, t1, t2);
    var name := first.input.projectName;
    TwoProjectSheetFacts(first, second, t1, t2);
    var after := DeleteRow(sheet, name);
    DeleteRowShape(sheet, name);
    DeleteRowLocal(sheet, name);
    var wb := Workbook(after, summary, rules);
    assert after[1] == MoveRow(sheet[2], 2);
    LocalAgrees(wb, 2, ColEngineerCost, EvalDepth);
    LocalAgrees(wb, 2, ColProfit, EvalDepth);
    MoveRowKeepsValues(sheet[2], 2, ColEngineerCost, EvalDepth);
    MoveRowKeepsValues(sheet[2], 2, ColProfit, EvalDepth);
    SavedRowEvaluates(second, 3, t2, EvalDepth);
  }

  /** Seen through the workbook load, the splice as written changes what the shifted project
      loads as: its profit reads the emptied row 3 and loads as zero, while the corrected delete
      loads the project's own amounts. */
  lemma SpliceLoadsStaleAmounts(first: ProjectRecord, second: ProjectRecord, t1: string, t2: string,
                                stale: Workbook, fixed: Workbook)
    requires first.input.projectName != second.input.projectName && |second.input.projectName| > 0
    requires CalculateProjectMetrics(second.input, t2).profit != 0.0
    requires stale.projects == DeleteRowAsWritten(TwoProjectSheet(first, second, t1, t2), first.input.projectName)
    requires fixed.projects == DeleteRow(TwoProjectSheet(first, second, t1, t2), first.input.projectName)
    ensures LoadWorkbook(stale) != LoadWorkbook(fixed)
  {
    var sheet := TwoProjectSheet(first, second, t1, t2);
    var name := first.input.projectName;
    TwoProjectSheetFacts(first, second, t1, t2);
    SpliceLeavesStaleReferences(first, second, t1, t2, stale.summary, stale.rules);
    assert Workbook(stale.projects, stale.summary, stale.rules) == stale;
    assert stale.projects == [sheet[0], sheet[2]];
    DeleteRowShape(sheet, name);
    DeleteRowLocal(sheet, name);
    assert fixed.projects[1] == MoveRow(sheet[2], 2);
    LoadRowMoved(sheet[2], 2);
    LoadSavedRow(second, 3, t2);
    LoadRowInLocal(fixed, 2);
    StaleRowDiffers(stale, fixed);
  }

  /** Two two-row sheets whose named row 2 loads with different profits load differently. */
  lemma StaleRowDiffers(a: Workbook, b: Workbook)
    requires |a.projects| == 2 && |b.projects| == 2
    requires IsNamed(a.projects[1]) && IsNamed(b.projects[1]) && LoadRowIn(b, 2).Some?
    requires NumberIn(a, 2, ColProfit) != Some(LoadRowIn(b, 2).value.profit)
    ensures LoadWorkbook(a) != LoadWorkbook(b)
  {
    var pb := LoadRowIn(b, 2).value;
    assert LoadFrom(b, 3) == Some([]);
    assert LoadWorkbook(b) == Join(Some([pb]), Some([]));
    assert LoadFrom(a, 3) == Some([]);
    match LoadRowIn(a, 2)
    case None =>
      assert LoadWorkbook(a) == Join(None, Some([]));
    case Some(pa) =>
      assert LoadWorkbook(a) == Join(Some([pa]), Some([]));
      assert LoadWorkbook(a).value[0] == pa && LoadWorkbook(b).value[0] == pb;
      assert pa.profit != pb.profit;
  }
}

=== FILE: results.dfy ===
/** Failure-carrying values shared by the period store and the spreadsheet service. */
module Results {

  /** Either a value or the human-readable message of the error the operation raised. */
  datatype Result<+T> = Ok(value: T) | Err(msg: string)

  datatype Option<+T> = None | Some(value: T)

  /** JavaScript's `a || b` on a string: an empty (falsy) first operand falls back to the second. */
  function OrElse(s: string, fallback: string): (r: string)
    ensures |s| > 0 ==> r == s
    ensures |s| == 0 ==> r == fallback
  {
    if |s| > 0 then s else fallback
  }
}

=== FILE: sheets.dfy ===
/** A workbook as the spreadsheet backend builds it: two worksheets of rows of cells, where a
    cell holds a number, a text or a small formula, plus the summary sheet's conditional-format
    ranges. Row number `r` of a sheet is element `r - 1` of its sequence and column number `c`
    of a row is element `c - 1` of its cells; positions past the end read as empty. */
module Sheets {
  import opened Results

  datatype SheetName = ProjectsSheet | SummarySheet

  /** The formula language the backend writes: references, literals, the four operators,
      and the whole-column `SUM` / `COUNTA` of the summary's metric block. */
  datatype Formula =
    | Ref(sheet: SheetName, col: nat, row: nat)
    | Lit(v: real)
    | Add(a: Formula, b: Formula)
    | Sub(a: Formula, b: Formula)
    | Mul(a: Formula, b: Formula)
    | Div(a: Formula, b: Formula)
    | SumRange(sheet: SheetName, col: nat, top: nat, count: nat)
    | CountA(sheet: SheetName, col: nat, top: nat, count: nat)

  datatype Cell = Empty | Num(v: real) | Text(s: string) | Fx(f: Formula)

  /** The display masks the backend assigns: none, the currency mask, the percent mask. */
  datatype NumFmt = General | Currency | Percent

  datatype Row = Row(cells: seq<Cell>, fmts: seq<NumFmt>)

  /** A conditional-format rule of the summary sheet over the cells `col` of rows `top..bottom`. */
  datatype CfRange = CfRange(col: nat, top: nat, bottom: nat)

  datatype Workbook = Workbook(projects: seq<Row>, summary: seq<Row>, rules: seq<CfRange>)

  /** What a cell evaluates to. */
  datatype Value = Number(x: real) | Str(s: string) | Blank | Error

  function EmptyRow(): Row
  {
    Row([], [])
  }

  function CellAt(row: Row, col: nat): Cell
  {
    if 1 <= col <= |row.cells| then row.cells[col - 1] else Empty
  }

  function CellOf(rows: seq<Row>, col: nat, r: nat): Cell
  {
    if 1 <= r <= |rows| then CellAt(rows[r - 1], col) else Empty
  }

  function FmtAt(row: Row, col: nat): NumFmt
  {
    if 1 <= col <= |row.fmts| then row.fmts[col - 1] else General
  }

  function Sheet(wb: Workbook, name: SheetName): seq<Row>
  {
    match name
    case ProjectsSheet => wb.projects
    case SummarySheet => wb.summary
  }

  /** JavaScript truthiness of a cell's value: null, `0` and `""` are falsy, a formula object is not. */
  predicate Truthy(c: Cell)
  {
    match c
    case Empty => false
    case Num(v) => v != 0.0
    case Text(s) => |s| > 0
    case Fx(_) => true
  }

  function Size(f: Formula): nat
    ensures Size(f) >= 1
  {
    match f
    case Add(a, b) => 1 + Size(a) + Size(b)
    case Sub(a, b) => 1 + Size(a) + Size(b)
    case Mul(a, b) => 1 + Size(a) + Size(b)
    case Div(a, b) => 1 + Size(a) + Size(b)
    case _ => 1
  }

  /** An operand of arithmetic: an empty cell counts as zero, text is a `#VALUE!` error. */
  function AsNumber(v: Value): Option<real>
  {
    match v
    case Number(x) => Some(x)
    case Blank => Some(0.0)
    case _ => None
  }

  datatype Op = Plus | Minus | Times | Over

  function Arith(op: Op, a: Value, b: Value): (r: Value)
    ensures AsNumber(a).None? || AsNumber(b).None? ==> r == Error
  {
    match (AsNumber(a), AsNumber(b))
    case (Some(x), Some(y)) =>
      (match op
       case Plus => Number(x + y)
       case Minus => Number(x - y)
       case Times => Number(x * y)
       case Over => if y == 0.0 then Error else Number(x / y))
    case _ => Error
  }

  /** The value of cell (`col`, `row`) of a sheet. `fuel` bounds the depth of formula
      references followed; running out reads as an error. */
  function EvalCell(wb: Workbook, sheet: SheetName, col: nat, row: nat, fuel: nat): Value
    decreases fuel, 0, 0
  {
    if fuel == 0 then Error
    else match CellOf(Sheet(wb, sheet), col, row)
      case Empty => Blank
      case Num(v) => Number(v)
      case Text(s) => Str(s)
      case Fx(f) => EvalFormula(wb, f, fuel - 1)
  }

  function EvalFormula(wb: Workbook, f: Formula, fuel: nat): Value
    decreases fuel, Size(f), 0
  {
    match f
    case Ref(sheet, col, row) => EvalCell(wb, sheet, col, row, fuel)
    case Lit(v) => Number(v)
    case Add(a, b) => Arith(Plus, EvalFormula(wb, a, fuel), EvalFormula(wb, b, fuel))
    case Sub(a, b) => Arith(Minus, EvalFormula(wb, a, fuel), EvalFormula(wb, b, fuel))
    case Mul(a, b) => Arith(Times, EvalFormula(wb, a, fuel), EvalFormula(wb, b, fuel))
    case Div(a, b) => Arith(Over, EvalFormula(wb, a, fuel), EvalFormula(wb, b, fuel))
    case SumRange(sheet, col, top, count) => SumCells(wb, sheet, col, top, count, fuel)
    case CountA(sheet, col, top, count) => Number(CountFilled(Sheet(wb, sheet), col, top, count) as real)
  }

  /** `SUM` over `count` cells from row `top` down: numbers add up, text and blanks are
      skipped, an error anywhere is the result. */
  function SumCells(wb: Workbook, sheet: SheetName, col: nat, top: nat, count: nat, fuel: nat): (v: Value)
    ensures v.Number? || v.Error?
    decreases fuel, 0, count
  {
    if count == 0 then Number(0.0)
    else
      var here := EvalCell(wb, sheet, col, top, fuel);
      var rest := SumCells(wb, sheet, col, top + 1, count - 1, fuel);
      if here.Error? || rest.Error? then Error
      else if here.Number? then Number(here.x + rest.x)
      else rest
  }

  /** `COUNTA` over `count` cells from row `top` down: every non-empty cell counts. */
  function CountFilled(rows: seq<Row>, col: nat, top: nat, count: nat): nat
    decreases count
  {
    if count == 0 then 0
    else (if CellOf(rows, col, top) != Empty then 1 else 0) + CountFilled(rows, col, top + 1, count - 1)
  }

  /** A formula of a project row that only reads cells of that same row `r` of the projects sheet. */
  predicate SameRow(f: Formula, r: nat)
  {
    match f
    case Ref(sheet, _, row) => sheet == ProjectsSheet && row == r
    case Lit(_) => true
    case Add(a, b) => SameRow(a, r) && SameRow(b, r)
    case Sub(a, b) => SameRow(a, r) && SameRow(b, r)
    case Mul(a, b) => SameRow(a, r) && SameRow(b, r)
    case Div(a, b) => SameRow(a, r) && SameRow(b, r)
    case _ => false
  }

  /** Every formula of the row reads only its own row `r`. */
  predicate RowIsLocal(row: Row, r: nat)
  {
    forall c :: 0 <= c < |row.cells| && row.cells[c].Fx? ==> SameRow(row.cells[c].f, r)
  }

  /** Every row of a projects sheet is self-contained. */
  predicate LocalSheet(rows: seq<Row>)
  {
    forall i :: 0 <= i < |rows| ==> RowIsLocal(rows[i], i + 1)
  }

  /** Evaluation of a row on its own: references read the row's own columns, whatever row
      number they carry. */
  function EvalLocal(row: Row, col: nat, fuel: nat): Value
    decreases fuel, 0
  {
    if fuel == 0 then Error
    else match CellAt(row, col)
      case Empty => Blank
      case Num(v) => Number(v)
      case Text(s) => Str(s)
      case Fx(f) => EvalLocalFormula(row, f, fuel - 1)
  }

  function EvalLocalFormula(row: Row, f: Formula, fuel: nat): Value
    decreases fuel, Size(f)
  {
    match f
    case Ref(sheet, col, _) => if sheet == ProjectsSheet then EvalLocal(row, col, fuel) else Error
    case Lit(v) => Number(v)
    case Add(a, b) => Arith(Plus, EvalLocalFormula(row, a, fuel), EvalLocalFormula(row, b, fuel))
    case Sub(a, b) => Arith(Minus, EvalLocalFormula(row, a, fuel), EvalLocalFormula(row, b, fuel))
    case Mul(a, b) => Arith(Times, EvalLocalFormula(row, a, fuel), EvalLocalFormula(row, b, fuel))
    case Div(a, b) => Arith(Over, EvalLocalFormula(row, a, fuel), EvalLocalFormula(row, b, fuel))
    case _ => Error
  }

  /** For a self-contained row of the projects sheet, evaluating it in the workbook and on its
      own agree: the row's values do not depend on any other row. */
  lemma {:induction false} LocalAgrees(wb: Workbook, r: nat, col: nat, fuel: nat)
    requires 1 <= r <= |wb.projects| && RowIsLocal(wb.projects[r - 1], r)
    ensures EvalCell(wb, ProjectsSheet, col, r, fuel) == EvalLocal(wb.projects[r - 1], col, fuel)
    decreases fuel, 0
  {
    var row := wb.projects[r - 1];
    if fuel > 0 && CellAt(row, col).Fx? {
      assert row.cells[col - 1] == CellAt(row, col);
      LocalAgreesFormula(wb, r, CellAt(row, col).f, fuel - 1);
    }
  }

  lemma {:induction false} LocalAgreesFormula(wb: Workbook, r: nat, f: Formula, fuel: nat)
    requires 1 <= r <= |wb.projects| && RowIsLocal(wb.projects[r - 1], r) && SameRow(f, r)
    ensures EvalFormula(wb, f, fuel) == EvalLocalFormula(wb.projects[r - 1], f, fuel)
    decreases fuel, Size(f)
  {
    match f
    case Ref(_, col, _) => LocalAgrees(wb, r, col, fuel);
    case Lit(_) =>
    case Add(a, b) => LocalAgreesFormula(wb, r, a, fuel); LocalAgreesFormula(wb, r, b, fuel);
    case Sub(a, b) => LocalAgreesFormula(wb, r, a, fuel); LocalAgreesFormula(wb, r, b, fuel);
    case Mul(a, b) => LocalAgreesFormula(wb, r, a, fuel); LocalAgreesFormula(wb, r, b, fuel);
    case Div(a, b) => LocalAgreesFormula(wb, r, a, fuel); LocalAgreesFormula(wb, r, b, fuel);
  }

  /** The formula with every reference pointed at row `r`. */
  function Retarget(f: Formula, r: nat): (g: Formula)
    ensures Size(g) == Size(f)
  {
    match f
    case Ref(sheet, col, _) => Ref(sheet, col, r)
    case Lit(v) => Lit(v)
    case Add(a, b) => Add(Retarget(a, r), Retarget(b, r))
    case Sub(a, b) => Sub(Retarget(a, r), Retarget(b, r))
    case Mul(a, b) => Mul(Retarget(a, r), Retarget(b, r))
    case Div(a, b) => Div(Retarget(a, r), Retarget(b, r))
    case _ => f
  }

  /** The row as it must read when it moves to row number `r`: its same-row formulas follow it. */
  function MoveRow(row: Row, r: nat): (moved: Row)
    ensures |moved.cells| == |row.cells| && moved.fmts == row.fmts
    ensures forall c :: 0 <= c < |row.cells| ==>
              moved.cells[c] == if row.cells[c].Fx? then Fx(Retarget(row.cells[c].f, r)) else row.cells[c]
  {
    Row(seq(|row.cells|, c requires 0 <= c < |row.cells| =>
          if row.cells[c].Fx? then Fx(Retarget(row.cells[c].f, r)) else row.cells[c]),
        row.fmts)
  }

  lemma {:induction false} RetargetSameRow(f: Formula, r: nat, r': nat)
    requires SameRow(f, r)
    ensures SameRow(Retarget(f, r'), r')
  {
    match f
    case Ref(_, _, _) =>
    case Lit(_) =>
    case Add(a, b) => RetargetSameRow(a, r, r'); RetargetSameRow(b, r, r');
    case Sub(a, b) => RetargetSameRow(a, r, r'); RetargetSameRow(b, r, r');
    case Mul(a, b) => RetargetSameRow(a, r, r'); RetargetSameRow(b, r, r');
    case Div(a, b) => RetargetSameRow(a, r, r'); RetargetSameRow(b, r, r');
  }

  /** A self-contained row stays self-contained when it moves with its formulas retargeted. */
  lemma MoveRowLocal(row: Row, r: nat, r': nat)
    requires RowIsLocal(row, r)
    ensures RowIsLocal(MoveRow(row, r'), r')
  {
    forall c | 0 <= c < |row.cells| && row.cells[c].Fx?
      ensures SameRow(Retarget(row.cells[c].f, r'), r')
    {
      RetargetSameRow(row.cells[c].f, r, r');
    }
  }

  /** Moving a row with its formulas retargeted leaves every value of the row unchanged. */
  lemma {:induction false} MoveRowKeepsValues(row: Row, r: nat, col: nat, fuel: nat)
    ensures EvalLocal(MoveRow(row, r), col, fuel) == EvalLocal(row, col, fuel)
    decreases fuel, 0
  {
    if fuel > 0 && CellAt(row, col).Fx? {
      assert row.cells[col - 1] == CellAt(row, col);
      RetargetKeepsValues(row, r, CellAt(row, col).f, fuel - 1);
    }
  }

  lemma {:induction false} RetargetKeepsValues(row: Row, r: nat, f: Formula, fuel: nat)
    ensures EvalLocalFormula(MoveRow(row, r), Retarget(f, r), fuel) == EvalLocalFormula(row, f, fuel)
    decreases fuel, Size(f)
  {
    match f
    case Ref(_, col, _) => MoveRowKeepsValues(row, r, col, fuel);
    case Lit(_) =>
    case Add(a, b) => RetargetKeepsValues(row, r, a, fuel); RetargetKeepsValues(row, r, b, fuel);
    case Sub(a, b) => RetargetKeepsValues(row, r, a, fuel); RetargetKeepsValues(row, r, b, fuel);
    case Mul(a, b) => RetargetKeepsValues(row, r, a, fuel); RetargetKeepsValues(row, r, b, fuel);
    case Div(a, b) => RetargetKeepsValues(row, r, a, fuel); RetargetKeepsValues(row, r, b, fuel);
    case SumRange(_, _, _, _) =>
    case CountA(_, _, _, _) =>
  }
}

=== FILE: sorting.dfy ===
/** `Object.keys(o).sort()` and `.reverse()` on the string keys of a JavaScript object. */
module Sorting {
  import opened Strings

  /** Ascending in JavaScript's default order, hence without duplicates. */
  predicate StrictlySorted(s: seq<string>)
  {
    forall i, j :: 0 <= i < j < |s| ==> Less(s[i], s[j])
  }

  /** Places `x` at its position in an ascending sequence. */
  function Insert(x: string, s: seq<string>): (r: seq<string>)
    requires StrictlySorted(s) && x !in s
    ensures StrictlySorted(r)
    ensures |r| == |s| + 1
    ensures forall y :: y in r <==> y == x || y in s
    decreases |s|
  {
    if |s| == 0 then [x]
    else if Less(x, s[0]) then
      assert forall j :: 0 <= j < |s| ==> Less(x, s[j]) by {
        forall j | 0 < j < |s| {
          LessTransitive(x, s[0], s[j]);
        }
      }
      [x] + s
    else
      LessTotal(x, s[0]);
      var tail := Insert(x, s[1..]);
      assert forall y :: y in tail ==> Less(s[0], y) by {
        forall y | y in tail
          ensures Less(s[0], y)
        {
          if y != x {
            var j :| 0 <= j < |s[1..]| && s[1..][j] == y;
            assert s[j + 1] == y;
          }
        }
      }
      assert s == [s[0]] + s[1..];
      [s[0]] + tail
  }

  /** The keys of an object in ascending order: a strictly sorted listing of exactly the set. */
  method SortKeys(keys: set<string>) returns (sorted: seq<string>)
    ensures StrictlySorted(sorted)
    ensures forall k :: k in sorted <==> k in keys
    ensures |sorted| == |keys|
  {
    sorted := [];
    var rest := keys;
    while rest != {}
      invariant rest <= keys
      invariant StrictlySorted(sorted)
      invariant forall k :: k in sorted <==> k in keys && k !in rest
      invariant |sorted| + |rest| == |keys|
      decreases |rest|
    {
      var k :| k in rest;
      sorted := Insert(k, sorted);
      rest := rest - {k};
    }
  }

  /** `.reverse()`. */
  function Reverse<T>(s: seq<T>): (r: seq<T>)
    ensures |r| == |s|
    ensures forall i :: 0 <= i < |s| ==> r[i] == s[|s| - 1 - i]
    decreases |s|
  {
    if |s| == 0 then [] else Reverse(s[1..]) + [s[0]]
  }

  /** A sequence without duplicates has as many distinct elements as it has positions. */
  lemma {:induction false} DistinctCardinality(s: seq<string>)
    requires StrictlySorted(s)
    ensures |set k | k in s| == |s|
    decreases |s|
  {
    if |s| > 0 {
      var tail := s[1..];
      DistinctCardinality(tail);
      assert (set k | k in s) == (set k | k in tail) + {s[0]};
      assert s[0] !in tail by {
        if s[0] in tail {
          var j :| 0 <= j < |tail| && tail[j] == s[0];
          assert Less(s[0], s[j + 1]);
          LessIrreflexive(s[0]);
        }
      }
    }
  }
}

=== FILE: stats.dfy ===
/** The summary fold of `DataManager.getSummaryStats`. */
module Stats {
  import opened Metrics

  datatype SummaryStats = SummaryStats(
    totalProjects: nat,
    totalRevenue: real,
    totalCosts: real,
    netProfit: real)

  /** What the store keeps per period for the trend chart: a copy of the list and its stats. */
  datatype Snapshot = Snapshot(projects: seq<ProjectRecord>, stats: SummaryStats)

  function Payment(p: ProjectRecord): real { p.input.clientPayment }

  function TotalCost(p: ProjectRecord): real { p.totalCost }

  function Profit(p: ProjectRecord): real { p.profit }

  /** `ps.reduce((sum, p) => sum + f(p), 0)`: a fold from the left starting at zero. */
  function SumBy(ps: seq<ProjectRecord>, f: ProjectRecord -> real): real
    decreases |ps|
  {
    if |ps| == 0 then 0.0 else SumBy(ps[..|ps| - 1], f) + f(ps[|ps| - 1])
  }

  /** Recomputed from the list on every call. */
  function GetSummaryStats(ps: seq<ProjectRecord>): (s: SummaryStats)
    ensures s.totalProjects == |ps|
    ensures s.totalRevenue == SumBy(ps, Payment) && s.totalCosts == SumBy(ps, TotalCost)
    ensures s.netProfit == s.totalRevenue - s.totalCosts
    ensures ps == [] ==> s == SummaryStats(0, 0.0, 0.0, 0.0)
  {
    var revenue := SumBy(ps, Payment);
    var costs := SumBy(ps, TotalCost);
    SummaryStats(|ps|, revenue, costs, revenue - costs)
  }

  lemma {:induction false} SumAppend(a: seq<ProjectRecord>, b: seq<ProjectRecord>, f: ProjectRecord -> real)
    ensures SumBy(a + b, f) == SumBy(a, f) + SumBy(b, f)
    decreases |b|
  {
    if |b| > 0 {
      var b' := b[..|b| - 1];
      assert (a + b)[..|a + b| - 1] == a + b';
      SumAppend(a, b', f);
    } else {
      assert a + b == a;
    }
  }

  lemma SumSingle(p: ProjectRecord, f: ProjectRecord -> real)
    ensures SumBy([p], f) == f(p)
  {
    assert [p][..0] == [];
  }

  /** Taking out the element at `i` lowers the sum by exactly that element's amount. */
  lemma {:induction false} SumRemoveAt(ps: seq<ProjectRecord>, i: nat, f: ProjectRecord -> real)
    requires i < |ps|
    ensures SumBy(ps[..i] + ps[i + 1..], f) == SumBy(ps, f) - f(ps[i])
    decreases |ps|
  {
    var n := |ps|;
    var rest := ps[..i] + ps[i + 1..];
    if i == n - 1 {
      assert rest == ps[..n - 1];
    } else {
      var init := ps[..n - 1];
      SumRemoveAt(init, i, f);
      var shorter := init[..i] + init[i + 1..];
      assert rest == shorter + [ps[n - 1]];
      assert rest[..|rest| - 1] == shorter;
      assert init[i] == ps[i];
    }
  }

  /** Appending a project adds one to the count and its payment, cost and margin to the totals. */
  lemma StatsAfterAppend(ps: seq<ProjectRecord>, p: ProjectRecord)
    ensures var s := GetSummaryStats(ps);
            var t := GetSummaryStats(ps + [p]);
            t.totalProjects == s.totalProjects + 1
            && t.totalRevenue == s.totalRevenue + p.input.clientPayment
            && t.totalCosts == s.totalCosts + p.totalCost
            && t.netProfit == s.netProfit + (p.input.clientPayment - p.totalCost)
  {
    SumAppend(ps, [p], Payment);
    SumAppend(ps, [p], TotalCost);
    SumSingle(p, Payment);
    SumSingle(p, TotalCost);
  }

  /** Removing the project at `i` takes exactly its contribution out of every total. */
  lemma StatsAfterRemove(ps: seq<ProjectRecord>, i: nat)
    requires i < |ps|
    ensures var s := GetSummaryStats(ps);
            var t := GetSummaryStats(ps[..i] + ps[i + 1..]);
            t.totalProjects + 1 == s.totalProjects
            && t.totalRevenue == s.totalRevenue - ps[i].input.clientPayment
            && t.totalCosts == s.totalCosts - ps[i].totalCost
            && t.netProfit == s.netProfit - (ps[i].input.clientPayment - ps[i].totalCost)
  {
    SumRemoveAt(ps, i, Payment);
    SumRemoveAt(ps, i, TotalCost);
  }

  /** For consistent records the net profit of the summary is the sum of the projects' profits. */
  lemma {:induction false} NetProfitIsSumOfProfits(ps: seq<ProjectRecord>)
    requires forall i :: 0 <= i < |ps| ==> Consistent(ps[i])
    ensures GetSummaryStats(ps).netProfit == SumBy(ps, Profit)
    decreases |ps|
  {
    if |ps| > 0 {
      var init := ps[..|ps| - 1];
      NetProfitIsSumOfProfits(init);
    }
  }
}

=== FILE: strings.dfy ===
/** String facts the store relies on: JavaScript's default string order (used by
    `Array.prototype.sort` with no comparator), `startsWith`, and the decimal
    rendering of a non-negative integer in a template literal. */
module Strings {

  /** `a < b` on JavaScript strings: lexicographic by character, a proper prefix first. */
  predicate Less(a: string, b: string)
    decreases |a|
  {
    if |a| == 0 then |b| > 0
    else if |b| == 0 then false
    else a[0] < b[0] || (a[0] == b[0] && Less(a[1..], b[1..]))
  }

  lemma {:induction false} LessIrreflexive(a: string)
    ensures !Less(a, a)
    decreases |a|
  {
    if |a| > 0 {
      LessIrreflexive(a[1..]);
    }
  }

  lemma {:induction false} LessTransitive(a: string, b: string, c: string)
    requires Less(a, b) && Less(b, c)
    ensures Less(a, c)
    decreases |a|
  {
    if |a| > 0 {
      assert |b| > 0 && |c| > 0;
      if a[0] == b[0] && b[0] == c[0] {
        LessTransitive(a[1..], b[1..], c[1..]);
      }
    }
  }

  lemma {:induction false} LessTotal(a: string, b: string)
    requires a != b
    ensures Less(a, b) || Less(b, a)
    decreases |a|
  {
    if |a| > 0 && |b| > 0 && a[0] == b[0] {
      assert a == [a[0]] + a[1..] && b == [b[0]] + b[1..];
      LessTotal(a[1..], b[1..]);
    }
  }

  lemma {:induction false} LessAsymmetric(a: string, b: string)
    requires Less(a, b)
    ensures !Less(b, a)
  {
    if Less(b, a) {
      LessTransitive(a, b, a);
      LessIrreflexive(a);
    }
  }

  /** `s.startsWith(prefix)`. */
  predicate StartsWith(s: string, prefix: string)
  {
    |prefix| <= |s| && s[..|prefix|] == prefix
  }

  /** A string of one or more ASCII decimal digits. */
  predicate IsDigits(s: string)
  {
    |s| > 0 && forall i :: 0 <= i < |s| ==> '0' <= s[i] <= '9'
  }

  function DigitChar(d: nat): (c: char)
    requires d < 10
    ensures '0' <= c <= '9'
    ensures c as int - '0' as int == d
  {
    (d + '0' as int) as char
  }

  /** The decimal text JavaScript gives a non-negative integer (`${n}`): no leading zeros. */
  function NatToString(n: nat): (s: string)
    ensures IsDigits(s)
    ensures |s| > 1 ==> s[0] != '0'
    decreases n
  {
    if n < 10 then [DigitChar(n)] else NatToString(n / 10) + [DigitChar(n % 10)]
  }

  /** The number a string of decimal digits denotes. */
  function DigitsValue(s: string): nat
    requires forall i :: 0 <= i < |s| ==> '0' <= s[i] <= '9'
    decreases |s|
  {
    if |s| == 0 then 0
    else DigitsValue(s[..|s| - 1]) * 10 + (s[|s| - 1] as int - '0' as int)
  }

  /** Rendering then reading the digits gives the number back. */
  lemma {:induction false} NatToStringRoundTrip(n: nat)
    ensures DigitsValue(NatToString(n)) == n
    decreases n
  {
    if n >= 10 {
      var s := NatToString(n);
      assert s[..|s| - 1] == NatToString(n / 10);
      NatToStringRoundTrip(n / 10);
    }
  }
}

=== FILE: summary.dfy ===
/** The summary sheet of a month's workbook (`ExcelService.createNewFile` lays out its fixed
    block, `ExcelService.updateSummarySheet` rebuilds everything below it): a metric block whose
    formulas total the projects sheet, a table with one row of references per named project
    row, a block of chart instructions, and a conditional-format rule over the profit column. */
module Summary {
  import opened Results
  import opened Strings
  import opened Sheets
  import opened Metrics
  import opened Stats
  import opened ProjectRows

  /** Rows 1 to 9 are fixed; the project table starts in row 10. */
  const HeaderRows: nat := 9
  const DetailTop: nat := 10
  /** The metric formulas cover rows 2 to 1000 of the projects sheet (`A2:A1000`, ...). */
  const RangeTop: nat := 2
  const RangeCount: nat := 999
  /** The chart block: a blank row, then fourteen rows down to the tip. */
  const ChartRows: nat := 15
  /** The profit column of the project table (`D`). */
  const DetailProfitCol: nat := 4

  function TextRow(s: string): Row
  {
    Row([Text(s)], [])
  }

  /** What a new workbook's summary sheet holds: title, metric header, the four metric
      formulas, spacing, and the project table's header. */
  function FixedSummaryRows(): (rows: seq<Row>)
    ensures |rows| == HeaderRows
  {
    seq(HeaderRows, i requires 0 <= i < HeaderRows => FixedRow(i + 1))
  }

  /** Row `k` of the fixed block. */
  function FixedRow(k: nat): Row
  {
    if k == 1 then TextRow("Monthly Summary")
    else if k == 3 then Row([Text("Metric"), Text("Value")], [])
    else if k == 4 then Row([Text("Total Projects"), Fx(MetricFormula(k))], [])
    else if k == 5 then Row([Text("Total Revenue"), Fx(MetricFormula(k))], [General, Currency])
    else if k == 6 then Row([Text("Total Costs"), Fx(MetricFormula(k))], [General, Currency])
    else if k == 7 then Row([Text("Net Profit"), Fx(MetricFormula(k))], [General, Currency])
    else if k == 9 then Row([Text("Project"), Text("Total Cost"), Text("Client Payment"), Text("Profit")], [])
    else EmptyRow()
  }

  /** The formula in column B of metric row `k`: `COUNTA` of the names, `SUM` of the payments,
      `SUM` of the total costs, and `B5-B6`. */
  function MetricFormula(k: nat): Formula
  {
    if k == 4 then CountA(ProjectsSheet, ColName, RangeTop, RangeCount)
    else if k == 5 then SumRange(ProjectsSheet, ColPayment, RangeTop, RangeCount)
    else if k == 6 then SumRange(ProjectsSheet, ColTotalCost, RangeTop, RangeCount)
    else Sub(Ref(SummarySheet, 2, 5), Ref(SummarySheet, 2, 6))
  }

  /** The table row for projects row `r`: its name, total cost, payment and profit, by reference. */
  function DetailRow(r: nat): Row
  {
    Row(seq(4, k requires 0 <= k < 4 => Fx(Ref(ProjectsSheet, DetailSource(k + 1), r))),
        [General, Currency, Currency, Currency])
  }

  /** The projects column table column `c` refers to: name, total cost, payment, profit. */
  function DetailSource(c: nat): nat
  {
    if c == 1 then ColName else if c == 2 then ColTotalCost else if c == 3 then ColPayment else ColProfit
  }

  function DetailRows(rs: seq<nat>): seq<Row>
  {
    seq(|rs|, i requires 0 <= i < |rs| => DetailRow(rs[i]))
  }

  /** The chart instructions written below a table whose last row is `last`. */
  function ChartBlock(last: nat): (rows: seq<Row>)
    ensures |rows| == ChartRows
  {
    seq(ChartRows, k requires 0 <= k < ChartRows => ChartLine(k, last))
  }

  function ChartLine(k: nat, last: nat): Row
  {
    var l := NatToString(last);
    if k == 1 then TextRow("\U{1F4CA} CHARTS")
    else if k == 3 then TextRow("Chart 1: Total Cost vs Client Payment (Clustered Column)")
    else if k == 4 then TextRow("\U{2022} Select range: A9:C" + l)
    else if k == 5 then TextRow("\U{2022} Insert > Charts > Clustered Column Chart")
    else if k == 6 then TextRow("\U{2022} Excel will automatically create the chart comparing Total Cost and Client Payment")
    else if k == 8 then TextRow("Chart 2: Profit per Project (Bar Chart)")
    else if k == 9 then TextRow("\U{2022} Select Project column (A9:A" + l + ")")
    else if k == 10 then TextRow("\U{2022} Hold Ctrl/Cmd and select Profit column (D9:D" + l + ")")
    else if k == 11 then TextRow("\U{2022} Insert > Charts > Bar Chart")
    else if k == 12 then TextRow("\U{2022} The chart will display profit for each project (green bars for positive, red for negative)")
    else if k == 14 then TextRow("\U{1F4A1} TIP: Both charts will update automatically when you add or modify projects!")
    else EmptyRow()
  }

  /** Rows 10 onwards spliced away; a shorter sheet reads as padded with empty rows, which
      writing row 10 creates. */
  function KeepHeader(summary: seq<Row>): (rows: seq<Row>)
    ensures |rows| == HeaderRows
    ensures forall i :: 0 <= i < |summary| && i < HeaderRows ==> rows[i] == summary[i]
    ensures forall i :: |summary| <= i < HeaderRows ==> rows[i] == EmptyRow()
  {
    if |summary| >= HeaderRows then summary[..HeaderRows]
    else summary + seq(HeaderRows - |summary|, _ => EmptyRow())
  }

  /** The rows after the fixed block for the named project rows `rs`. */
  function Below(rs: seq<nat>): seq<Row>
  {
    DetailRows(rs) + (if |rs| > 0 then ChartBlock(HeaderRows + |rs|) else [])
  }

  /** The rule added for a table of `n` rows: none for an empty table. */
  function NewRules(n: nat): seq<CfRange>
  {
    if n > 0 then [CfRange(DetailProfitCol, DetailTop, HeaderRows + n)] else []
  }

  /** Rebuilds the summary below row 9 from the projects sheet and adds one more profit rule;
      the rules of earlier calls stay. */
  function UpdateSummary(wb: Workbook): (r: Workbook)
    ensures r.projects == wb.projects
    ensures |r.summary| == HeaderRows + |Below(NamedRows(wb.projects))|
    ensures r.summary[..HeaderRows] == KeepHeader(wb.summary)
    ensures r.rules == wb.rules + NewRules(|NamedRows(wb.projects)|)
  {
    var rs := NamedRows(wb.projects);
    wb.(summary := KeepHeader(wb.summary) + Below(rs), rules := wb.rules + NewRules(|rs|))
  }

  /** The layout below the fixed block: table row `10 + i` refers to the `i`-th named project
      row, the chart block follows the table directly, and an empty projects sheet leaves no
      rows and no new rule. */
  lemma UpdateSummaryLayout(wb: Workbook)
    ensures var r := UpdateSummary(wb);
            var rs := NamedRows(wb.projects);
            && (forall i :: 0 <= i < |rs| ==> r.summary[HeaderRows + i] == DetailRow(rs[i]))
            && (|rs| > 0 ==> r.summary[HeaderRows + |rs|..] == ChartBlock(HeaderRows + |rs|))
            && (|rs| == 0 ==> r.summary == KeepHeader(wb.summary) && r.rules == wb.rules)
  {
    var r := UpdateSummary(wb);
    var rs := NamedRows(wb.projects);
    assert r.summary == KeepHeader(wb.summary) + DetailRows(rs) + (if |rs| > 0 then ChartBlock(HeaderRows + |rs|) else []);
  }

  /** The newest rule covers exactly the profit cells of the table just written. */
  lemma NewRuleCoversTable(wb: Workbook)
    requires |NamedRows(wb.projects)| > 0
    ensures var r := UpdateSummary(wb);
            var rule := r.rules[|r.rules| - 1];
            && rule.col == DetailProfitCol
            && rule.top == DetailTop
            && rule.bottom - rule.top + 1 == |NamedRows(wb.projects)|
            && (forall i :: 0 <= i < |NamedRows(wb.projects)| ==>
                  r.summary[rule.top - 1 + i] == DetailRow(NamedRows(wb.projects)[i]))
  {
    UpdateSummaryLayout(wb);
  }

  /** Rebuilding twice gives the same sheets as rebuilding once: the fixed block is kept and
      everything below is derived from the projects sheet alone. */
  lemma UpdateSummaryIdempotent(wb: Workbook)
    ensures var once := UpdateSummary(wb);
            var twice := UpdateSummary(once);
            twice.projects == once.projects && twice.summary == once.summary
  {
    var once := UpdateSummary(wb);
    var rs := NamedRows(wb.projects);
    assert once.summary == KeepHeader(wb.summary) + Below(rs);
    assert KeepHeader(once.summary) == KeepHeader(wb.summary);
  }

  /** The rules are never cleared: every rebuild over a non-empty table adds one more. */
  lemma RulesAccumulate(wb: Workbook)
    ensures var twice := UpdateSummary(UpdateSummary(wb));
            var n := |NamedRows(wb.projects)|;
            |twice.rules| == |wb.rules| + (if n > 0 then 2 else 0)
            && twice.rules[..|wb.rules|] == wb.rules
  {
  }

  /** A summary whose fixed block is intact keeps it through a rebuild. */
  lemma UpdateKeepsFixedBlock(wb: Workbook)
    requires |wb.summary| >= HeaderRows && wb.summary[..HeaderRows] == FixedSummaryRows()
    ensures var r := UpdateSummary(wb);
            |r.summary| >= HeaderRows && r.summary[..HeaderRows] == FixedSummaryRows()
  {
  }

  /** The chart instructions name the table's last row, and the number reads back. */
  lemma ChartRangeNamesLastRow(wb: Workbook)
    requires |NamedRows(wb.projects)| > 0
    ensures var r := UpdateSummary(wb);
            var last := HeaderRows + |NamedRows(wb.projects)|;
            var prefix := "\U{2022} Select range: A9:C";
            var text := r.summary[last + 4].cells[0].s;
            && r.summary[last + 4] == TextRow(text)
            && StartsWith(text, prefix)
            && IsDigits(text[|prefix|..])
            && DigitsValue(text[|prefix|..]) == last
  {
    var r := UpdateSummary(wb);
    var n := |NamedRows(wb.projects)|;
    var last := HeaderRows + n;
    UpdateSummaryLayout(wb);
    assert r.summary[last + 4] == r.summary[last..][4];
    var l := NatToString(last);
    var prefix := "\U{2022} Select range: A9:C";
    assert r.summary[last + 4] == TextRow(prefix + l);
    assert (prefix + l)[|prefix|..] == l;
    assert (prefix + l)[..|prefix|] == prefix;
    NatToStringRoundTrip(last);
  }

  // ---- what the table's cells evaluate to ----

  /** A loaded row's payment, total cost and profit columns evaluate to the record's amounts. */
  lemma LoadedNumbers(row: Row, p: ProjectRecord)
    requires LoadRow(row) == Some(p)
    ensures NumberAt(row, ColPayment) == Some(p.input.clientPayment)
    ensures NumberAt(row, ColTotalCost) == Some(p.totalCost)
    ensures NumberAt(row, ColProfit) == Some(p.profit)
  {
    var xs := NumbersOf(row);
    assert xs[5] == NumberAt(row, ColPayment);
    assert xs[11] == NumberAt(row, ColTotalCost);
    assert xs[12] == NumberAt(row, ColProfit);
  }

  /** A summary cell holding a reference into a self-contained projects row evaluates to
      that row's column. */
  lemma RefCellValue(wb: Workbook, c: nat, row: nat, src: nat, r: nat)
    requires 1 <= r <= |wb.projects| && RowIsLocal(wb.projects[r - 1], r)
    requires CellOf(wb.summary, c, row) == Fx(Ref(ProjectsSheet, src, r))
    ensures EvalCell(wb, SummarySheet, c, row, EvalDepth + 1) == EvalLocal(wb.projects[r - 1], src, EvalDepth)
  {
    LocalAgrees(wb, r, src, EvalDepth);
  }

  /** Row `10 + i` of the rebuilt summary is the table row of the `i`-th named project row. */
  lemma DetailRowAt(wb: Workbook, i: nat)
    requires i < |NamedRows(wb.projects)|
    ensures |UpdateSummary(wb).summary| > HeaderRows + i
    ensures UpdateSummary(wb).summary[HeaderRows + i] == DetailRow(NamedRows(wb.projects)[i])
  {
    UpdateSummaryLayout(wb);
  }

  /** Table cell (`c`, `10 + i`) evaluates to what its project row's column evaluates to. */
  lemma DetailCellValue(wb: Workbook, i: nat, c: nat)
    requires LocalSheet(wb.projects) && i < |NamedRows(wb.projects)| && 1 <= c <= 4
    ensures EvalCell(UpdateSummary(wb), SummarySheet, c, DetailTop + i, EvalDepth + 1)
            == EvalLocal(wb.projects[NamedRows(wb.projects)[i] - 1], DetailSource(c), EvalDepth)
  {
    var s := UpdateSummary(wb);
    var r := NamedRows(wb.projects)[i];
    DetailRowAt(wb, i);
    assert CellOf(s.summary, c, DetailTop + i) == Fx(Ref(ProjectsSheet, DetailSource(c), r));
    RefCellValue(s, c, DetailTop + i, DetailSource(c), r);
  }

  /** Row `10 + i` of the rebuilt summary shows the `i`-th loaded project: its name, total
      cost, payment and profit (a blank reads as zero, as it does when the project loads). */
  lemma DetailShowsProject(wb: Workbook, i: nat)
    requires LocalSheet(wb.projects)
    requires LoadProjects(wb.projects).Some? && i < |LoadProjects(wb.projects).value|
    ensures var s := UpdateSummary(wb);
            var p := LoadProjects(wb.projects).value[i];
            && EvalCell(s, SummarySheet, 1, DetailTop + i, EvalDepth + 1) == Str(p.input.projectName)
            && AsNumber(EvalCell(s, SummarySheet, 2, DetailTop + i, EvalDepth + 1)) == Some(p.totalCost)
            && AsNumber(EvalCell(s, SummarySheet, 3, DetailTop + i, EvalDepth + 1)) == Some(p.input.clientPayment)
            && AsNumber(EvalCell(s, SummarySheet, 4, DetailTop + i, EvalDepth + 1)) == Some(p.profit)
  {
    var ps := LoadProjects(wb.projects).value;
    LoadProjectsNamed(wb.projects);
    var row := wb.projects[NamedRows(wb.projects)[i] - 1];
    assert LoadRow(row) == Some(ps[i]);
    DetailCellValue(wb, i, 1);
    DetailCellValue(wb, i, 2);
    DetailCellValue(wb, i, 3);
    DetailCellValue(wb, i, 4);
    LoadedNumbers(row, ps[i]);
  }

  // ---- what the metric block evaluates to ----

  /** The amounts of column `col` of `rows`, added from the first row down. */
  function ColumnTotal(rows: seq<Row>, col: nat): real
    decreases |rows|
  {
    if |rows| == 0 then 0.0
    else (match NumberAt(rows[0], col) case Some(x) => x case None => 0.0) + ColumnTotal(rows[1..], col)
  }

  lemma {:induction false} SumPastEnd(wb: Workbook, col: nat, top: nat, count: nat)
    requires top > |wb.projects|
    ensures SumCells(wb, ProjectsSheet, col, top, count, EvalDepth) == Number(0.0)
    decreases count
  {
    if count > 0 {
      SumPastEnd(wb, col, top + 1, count - 1);
    }
  }

  /** `SUM` over a range reaching past the last row adds up the column of every row it covers. */
  lemma {:induction false} SumColumn(wb: Workbook, col: nat, top: nat, count: nat)
    requires LocalSheet(wb.projects)
    requires 1 <= top <= |wb.projects| + 1 <= top + count
    requires forall j :: top - 1 <= j < |wb.projects| ==> NumberAt(wb.projects[j], col).Some?
    ensures SumCells(wb, ProjectsSheet, col, top, count, EvalDepth) == Number(ColumnTotal(wb.projects[top - 1..], col))
    decreases count
  {
    if top == |wb.projects| + 1 {
      SumPastEnd(wb, col, top, count);
    } else {
      var row := wb.projects[top - 1];
      LocalAgrees(wb, top, col, EvalDepth);
      SumColumn(wb, col, top + 1, count - 1);
      assert wb.projects[top - 1..][1..] == wb.projects[top..];
    }
  }

  lemma {:induction false} CountPastEnd(rows: seq<Row>, col: nat, top: nat, count: nat)
    requires top > |rows|
    ensures CountFilled(rows, col, top, count) == 0
    decreases count
  {
    if count > 0 {
      CountPastEnd(rows, col, top + 1, count - 1);
    }
  }

  /** `COUNTA` over a range reaching past the last row counts every named row it covers. */
  lemma {:induction false} CountNamed(rows: seq<Row>, top: nat, count: nat)
    requires 1 <= top <= |rows| + 1 <= top + count
    requires forall j :: top - 1 <= j < |rows| ==> IsNamed(rows[j])
    ensures CountFilled(rows, ColName, top, count) == |rows| + 1 - top
    decreases count
  {
    if top == |rows| + 1 {
      CountPastEnd(rows, ColName, top, count);
    } else {
      assert IsNamed(rows[top - 1]);
      CountNamed(rows, top + 1, count - 1);
    }
  }

  lemma {:induction false} NamedInEveryRow(rows: seq<Row>, base: nat)
    requires forall j :: 0 <= j < |rows| ==> IsNamed(rows[j])
    ensures |NamedIn(rows, base)| == |rows|
    decreases |rows|
  {
    if |rows| > 0 {
      assert IsNamed(rows[0]);
      NamedInEveryRow(rows[1..], base + 1);
    }
  }

  /** When every row is named, column totals of the loaded rows equal the sum over the records. */
  lemma {:induction false} ColumnTotalLoaded(rows: seq<Row>, col: nat, f: ProjectRecord -> real)
    requires forall j :: 0 <= j < |rows| ==> IsNamed(rows[j])
    requires LoadRows(rows).Some?
    requires forall j :: 0 <= j < |rows| && LoadRow(rows[j]).Some? ==>
               NumberAt(rows[j], col) == Some(f(LoadRow(rows[j]).value))
    ensures ColumnTotal(rows, col) == SumBy(LoadRows(rows).value, f)
    decreases |rows|
  {
    if |rows| > 0 {
      var tail := rows[1..];
      assert IsNamed(rows[0]);
      assert LoadRows(rows) == Join(LoadOne(rows[0], LoadRow), LoadRows(tail));
      var p := LoadRow(rows[0]).value;
      assert LoadOne(rows[0], LoadRow) == Some([p]);
      assert NumberAt(rows[0], col) == Some(f(p));
      forall j | 0 <= j < |tail| && LoadRow(tail[j]).Some?
        ensures NumberAt(tail[j], col) == Some(f(LoadRow(tail[j]).value))
      {
        assert tail[j] == rows[j + 1];
      }
      ColumnTotalLoaded(tail, col, f);
      SumAppend([p], LoadRows(tail).value, f);
      SumSingle(p, f);
    }
  }

  /** A sheet whose data rows all carry a name, fit the `2:1000` ranges and load. */
  predicate FullyNamed(sheet: seq<Row>)
  {
    && LocalSheet(sheet) && 1 <= |sheet| <= RangeTop + RangeCount - 1
    && (forall j :: 1 <= j < |sheet| ==> IsNamed(sheet[j]))
    && LoadProjects(sheet).Some?
  }

  /** `COUNTA(Projects!A2:A1000)` is the number of loaded projects. */
  lemma CountMatches(sheet: seq<Row>)
    requires FullyNamed(sheet)
    ensures CountFilled(sheet, ColName, RangeTop, RangeCount) == |LoadProjects(sheet).value|
  {
    var data := sheet[1..];
    LoadProjectsNamed(sheet);
    forall j | 0 <= j < |data| ensures IsNamed(data[j]) {
      assert data[j] == sheet[j + 1];
    }
    NamedInEveryRow(data, 2);
    CountNamed(sheet, RangeTop, RangeCount);
  }

  /** `SUM(Projects!X2:X1000)` over an amount column is the sum of that amount over the loaded
      projects, for the payment and the total-cost columns. */
  lemma SumMatches(wb: Workbook, col: nat, f: ProjectRecord -> real)
    requires FullyNamed(wb.projects)
    requires (col == ColPayment && f == Payment) || (col == ColTotalCost && f == TotalCost)
    ensures SumCells(wb, ProjectsSheet, col, RangeTop, RangeCount, EvalDepth)
            == Number(SumBy(LoadProjects(wb.projects).value, f))
  {
    var sheet := wb.projects;
    var data := sheet[1..];
    assert LoadProjects(sheet) == LoadRows(data);
    LoadProjectsNamed(sheet);
    forall j | 0 <= j < |data| ensures IsNamed(data[j]) {
      assert data[j] == sheet[j + 1];
    }
    forall j | 0 <= j < |data| && LoadRow(data[j]).Some?
      ensures NumberAt(data[j], col) == Some(f(LoadRow(data[j]).value))
    {
      LoadedNumbers(data[j], LoadRow(data[j]).value);
    }
    forall j | RangeTop - 1 <= j < |sheet| ensures NumberAt(sheet[j], col).Some? {
      assert sheet[j] == data[j - 1];
      assert IsNamed(sheet[j]);
      LoadedNumbers(sheet[j], LoadRow(sheet[j]).value);
    }
    ColumnTotalLoaded(data, col, f);
    SumColumn(wb, col, RangeTop, RangeCount);
  }

  /** Column B of metric row `k` as the fixed block writes it. */
  lemma MetricCell(wb: Workbook, k: nat)
    requires |wb.summary| >= HeaderRows && wb.summary[..HeaderRows] == FixedSummaryRows()
    requires 4 <= k <= 7
    ensures CellOf(wb.summary, 2, k) == Fx(MetricFormula(k))
  {
    assert wb.summary[k - 1] == FixedSummaryRows()[k - 1];
  }

  lemma CountCell(wb: Workbook)
    requires |wb.summary| >= HeaderRows && wb.summary[..HeaderRows] == FixedSummaryRows()
    ensures EvalCell(wb, SummarySheet, 2, 4, EvalDepth + 1)
            == Number(CountFilled(wb.projects, ColName, RangeTop, RangeCount) as real)
  {
    MetricCell(wb, 4);
  }

  lemma SumCell(wb: Workbook, k: nat, col: nat, f: ProjectRecord -> real)
    requires FullyNamed(wb.projects)
    requires |wb.summary| >= HeaderRows && wb.summary[..HeaderRows] == FixedSummaryRows()
    requires (k == 5 && col == ColPayment && f == Payment) || (k == 6 && col == ColTotalCost && f == TotalCost)
    ensures EvalCell(wb, SummarySheet, 2, k, EvalDepth + 1) == Number(SumBy(LoadProjects(wb.projects).value, f))
  {
    MetricCell(wb, k);
    SumMatches(wb, col, f);
  }

  lemma NetCell(wb: Workbook)
    requires |wb.summary| >= HeaderRows && wb.summary[..HeaderRows] == FixedSummaryRows()
    ensures EvalCell(wb, SummarySheet, 2, 7, EvalDepth + 2)
            == Arith(Minus, EvalCell(wb, SummarySheet, 2, 5, EvalDepth + 1), EvalCell(wb, SummarySheet, 2, 6, EvalDepth + 1))
  {
    MetricCell(wb, 7);
    assert EvalFormula(wb, Ref(SummarySheet, 2, 5), EvalDepth + 1) == EvalCell(wb, SummarySheet, 2, 5, EvalDepth + 1);
    assert EvalFormula(wb, Ref(SummarySheet, 2, 6), EvalDepth + 1) == EvalCell(wb, SummarySheet, 2, 6, EvalDepth + 1);
  }

  predicate FixedBlockIntact(wb: Workbook)
  {
    |wb.summary| >= HeaderRows && wb.summary[..HeaderRows] == FixedSummaryRows()
  }

  lemma CountStat(wb: Workbook)
    requires FullyNamed(wb.projects) && FixedBlockIntact(wb)
    ensures EvalCell(wb, SummarySheet, 2, 4, EvalDepth + 1)
            == Number(GetSummaryStats(LoadProjects(wb.projects).value).totalProjects as real)
  {
    CountCell(wb);
    CountMatches(wb.projects);
  }

  lemma RevenueStat(wb: Workbook)
    requires FullyNamed(wb.projects) && FixedBlockIntact(wb)
    ensures EvalCell(wb, SummarySheet, 2, 5, EvalDepth + 1)
            == Number(GetSummaryStats(LoadProjects(wb.projects).value).totalRevenue)
  {
    SumCell(wb, 5, ColPayment, Payment);
  }

  lemma CostStat(wb: Workbook)
    requires FullyNamed(wb.projects) && FixedBlockIntact(wb)
    ensures EvalCell(wb, SummarySheet, 2, 6, EvalDepth + 1)
            == Number(GetSummaryStats(LoadProjects(wb.projects).value).totalCosts)
  {
    SumCell(wb, 6, ColTotalCost, TotalCost);
  }

  lemma NetStat(wb: Workbook)
    requires FullyNamed(wb.projects) && FixedBlockIntact(wb)
    ensures EvalCell(wb, SummarySheet, 2, 7, EvalDepth + 2)
            == Number(GetSummaryStats(LoadProjects(wb.projects).value).netProfit)
  {
    RevenueStat(wb);
    CostStat(wb);
    NetCell(wb);
  }

  /** The metric block agrees with the summary statistics of the loaded projects, when every
      data row carries a name and the sheet fits the `2:1000` ranges: `B4` is the count,
      `B5` the revenue, `B6` the costs and `B7` the net profit. */
  lemma MetricsMatchStats(wb: Workbook)
    requires FullyNamed(wb.projects) && FixedBlockIntact(wb)
    ensures var s := GetSummaryStats(LoadProjects(wb.projects).value);
            && EvalCell(wb, SummarySheet, 2, 4, EvalDepth + 1) == Number(s.totalProjects as real)
            && EvalCell(wb, SummarySheet, 2, 5, EvalDepth + 1) == Number(s.totalRevenue)
            && EvalCell(wb, SummarySheet, 2, 6, EvalDepth + 1) == Number(s.totalCosts)
            && EvalCell(wb, SummarySheet, 2, 7, EvalDepth + 2) == Number(s.netProfit)
  {
    CountStat(wb);
    RevenueStat(wb);
    CostStat(wb);
    NetStat(wb);
  }
}

=== FILE: trend.dfy ===
/** The trend query of `DataManager.getMonthlyTrend`: the last six period keys in sorted
    order, each with its snapshot's net profit. */
module Trend {
  import opened Strings
  import opened Sorting
  import opened Stats

  const TrendLength: nat := 6

  datatype TrendPoint = TrendPoint(period: string, profit: real)

  function Periods(t: seq<TrendPoint>): (ps: seq<string>)
    ensures |ps| == |t| && forall i :: 0 <= i < |t| ==> ps[i] == t[i].period
  {
    seq(|t|, i requires 0 <= i < |t| => t[i].period)
  }

  /** Sorts the period keys, keeps `slice(-6)` of them and pairs each with its net profit. */
  method GetMonthlyTrend(monthly: map<string, Snapshot>) returns (trend: seq<TrendPoint>)
    ensures |trend| == if |monthly| < TrendLength then |monthly| else TrendLength
    ensures StrictlySorted(Periods(trend))
    ensures forall i :: 0 <= i < |trend| ==>
              trend[i].period in monthly && trend[i].profit == monthly[trend[i].period].stats.netProfit
    ensures forall k :: k in monthly && k !in Periods(trend) ==>
              forall i :: 0 <= i < |trend| ==> Less(k, trend[i].period)
  {
    var sorted := SortKeys(monthly.Keys);
    var start := if |sorted| > TrendLength then |sorted| - TrendLength else 0;
    var last := sorted[start..];
    trend := seq(|last|, i requires 0 <= i < |last| => TrendPoint(last[i], monthly[last[i]].stats.netProfit));
    assert Periods(trend) == last;
    forall k | k in monthly && k !in last
      ensures forall i :: 0 <= i < |last| ==> Less(k, last[i])
    {
      var a :| 0 <= a < |sorted| && sorted[a] == k;
      assert forall j :: start <= j < |sorted| ==> last[j - start] == sorted[j];
      forall i | 0 <= i < |last| ensures Less(k, last[i]) {
        assert last[i] == sorted[start + i];
      }
    }
  }
}

=== FILE: validation.dfy ===
/** The entry-form check of `AppController.validateFormData`. */
module Validation {
  import opened Metrics

  /** What `parseFloat` of a form field yields: a number, or NaN for unparsable text. */
  datatype JsNumber = NaN | Finite(value: real)

  /** The form as submitted: the trimmed name and the seven parsed numeric fields. */
  datatype FormData = FormData(
    projectName: string,
    numEngineers: JsNumber,
    engineerSalary: JsNumber,
    ceVisitCharge: JsNumber,
    visitsPerMonth: JsNumber,
    transportCost: JsNumber,
    clientPayment: JsNumber,
    overheadAllocation: JsNumber)

  /** A field passes when it is a number and not below zero. */
  predicate Acceptable(x: JsNumber)
  {
    x.Finite? && x.value >= 0.0
  }

  /** The form is acceptable: a non-empty name and every numeric field acceptable. */
  predicate Valid(d: FormData)
  {
    && |d.projectName| > 0
    && Acceptable(d.numEngineers)
    && Acceptable(d.engineerSalary)
    && Acceptable(d.ceVisitCharge)
    && Acceptable(d.visitsPerMonth)
    && Acceptable(d.transportCost)
    && Acceptable(d.clientPayment)
    && Acceptable(d.overheadAllocation)
  }

  /** The numeric fields in the order the validator visits them. */
  function NumericFields(d: FormData): seq<JsNumber>
  {
    [d.numEngineers, d.engineerSalary, d.ceVisitCharge, d.visitsPerMonth,
     d.transportCost, d.clientPayment, d.overheadAllocation]
  }

  /** Rejects an empty name first, then stops at the first field that is NaN or negative. */
  method ValidateFormData(d: FormData) returns (ok: bool)
    ensures ok <==> Valid(d)
  {
    if |d.projectName| == 0 {
      return false;
    }
    var fields := NumericFields(d);
    var i := 0;
    while i < |fields|
      invariant 0 <= i <= |fields|
      invariant forall j :: 0 <= j < i ==> Acceptable(fields[j])
    {
      if fields[i].NaN? || fields[i].value < 0.0 {
        return false;
      }
      i := i + 1;
    }
    assert Acceptable(fields[0]) && Acceptable(fields[1]) && Acceptable(fields[2])
      && Acceptable(fields[3]) && Acceptable(fields[4]) && Acceptable(fields[5])
      && Acceptable(fields[6]);
    return true;
  }

  /** The record handed to the store once the form passed. */
  function ToInput(d: FormData): (p: ProjectInput)
    requires Valid(d)
    ensures NonNegative(p) && p.projectName == d.projectName
    ensures Finite(p.engineerSalary) == d.engineerSalary && Finite(p.clientPayment) == d.clientPayment
    ensures Finite(p.numEngineers) == d.numEngineers && Finite(p.ceVisitCharge) == d.ceVisitCharge
    ensures Finite(p.visitsPerMonth) == d.visitsPerMonth && Finite(p.transportCost) == d.transportCost
    ensures Finite(p.overheadAllocation) == d.overheadAllocation
  {
    ProjectInput(d.projectName, d.numEngineers.value, d.engineerSalary.value, d.ceVisitCharge.value,
                 d.visitsPerMonth.value, d.transportCost.value, d.clientPayment.value,
                 d.overheadAllocation.value)
  }
}
